=== FILE: README.md ===
# kyuncli in Dafny

A Dafny model of the logic inside `kyuncli`, a command-line client for the Kyun hosting API.
`kyuncli` manages Danbos (virtual machines), Bricks (block storage), SSH keys, support chats and
deposits. The model has two main parts:

- **The local account store** (`kyuncli/config.py`). It is an ordered list of account records
  `{hash, api_key, user_id, active}` and has four operations: select an account, upsert an account,
  remove an account, and look up the active one. The JSON file becomes an immutable `Config`
  value: each operation takes the loaded store and returns the store it saves, along with its
  result.
- **The billing helpers** (`kyuncli/utils.py`):
  - euro formatting of cent amounts;
  - proration of a full-cycle charge over the time left until the next billing cycle (a fixed
    30-day cycle, truncated toward zero);
  - the matching "time remaining" label.

Around these, the pure rules inside the command handlers are pulled out as functions:

- the Danbo spec guards and power-action whitelist;
- editing of the authorized-keys text;
- the stats window;
- the Brick size guards and grow quote;
- SSH-key prefixing and previews;
- setup error messages;
- the account list;
- the chat columns;
- deposit validation.

| file | module | models |
|---|---|---|
| `wrappers.dfy` | `Wrappers` | `Option` and `Result` |
| `seqs.dfy` | `Seqs` | list comprehensions with a condition, `reversed`, suffix slices |
| `text.dfy` | `Text` | `str.strip`, `split('\n')`, `'\n'.join`, `upper`/`lower`, `str(n)`, the `s[:n] + "..."` preview |
| `config.dfy` | `AccountStore` | `kyuncli/config.py` |
| `utils.dfy` | `Billing` | `format_eur`, `calculate_prorated_cost`, `get_time_remaining_str` |
| `danbos.dfy` | `Danbos` | rules from `kyuncli/danbos.py` |
| `bricks.dfy` | `Bricks` | rules from `kyuncli/bricks.py` |
| `accounts.dfy` | `Accounts` | rules from `kyuncli/accounts.py` |
| `chat.dfy` | `Chat` | rules from `kyuncli/chat.py` |
| `deposits.dfy` | `Deposits` | rules from `kyuncli/deposits.py` |

**Time.** Instants are integers that count microseconds.

- The parsed `nextCycle` timestamp arrives as an `Option<int>`. `None` covers every path into the
  source's `except` branch: text that fails to parse, or a naive timestamp that cannot be compared
  with the aware clock.
- The wall clock arrives as the parameter `now`.
- The `end - now` difference becomes a `TimeDelta(days, seconds, microseconds)` normalised the way
  Python's `timedelta` normalises. `days + seconds / 86400` is therefore whole seconds with the
  microseconds dropped.

**Proration.** `calculate_prorated_cost` computes `int(days_remaining / 30 * cost)` in floating
point. The model does the same computation exactly: `trunc(whole_seconds * cost / 2592000)`.

**Other timestamps.** The chat and deposit timestamps go through `datetime.fromisoformat` and
`strftime`. The model passes that formatter in as a function returning `Option<string>`, where
`None` means it raised. The two commands use different patterns: the chat columns print
`%Y-%m-%d %H:%M`, the deposit view `%Y-%m-%d %H:%M:%S`. Chat.Formatter therefore builds each
view's formatter from one shared parse and that view's own rendering.

**Store behaviour worth knowing:**

- API keys are stored inline in each account record.
- Only `set_active_account` upper-cases the hash it is given. Upserts and removals compare hashes
  exactly as typed.
- A `set_active_account` with no match is not a no-op. It rewrites the store with every record
  inactive.

## Model

| member | source | states |
|---|---|---|
| AccountStore.LoadConfig | kyuncli/config.py:7-11 | with no file the store has no accounts; otherwise the store is the persisted one unchanged |
| AccountStore.ListAccounts | kyuncli/config.py:62-63 | the listed records are the stored ones in file order, and none when there is no file |
| AccountStore.FirstActiveIndex | kyuncli/config.py:20-23 | none exactly when no record is active; otherwise an active record with no active record before it |
| AccountStore.GetActiveAccount | kyuncli/config.py:18-23 | the result is absent iff no record is active; otherwise it is the first active record in store order |
| AccountStore.GetCurrentUserId | kyuncli/config.py:65-68 | fails exactly when no record is active, with the `None`-subscript error; otherwise it returns the user id of the first active record |
| AccountStore.ActiveCountAtMostOne | kyuncli/config.py:18-23 | counting active records agrees with the pairwise "at most one active", "some active" and "exactly one active" views |
| AccountStore.MarkActive | kyuncli/config.py:29-32 | the loop keeps every record's hash, key and user id, and sets active iff the hash equals the target |
| AccountStore.SetActiveAccount | kyuncli/config.py:25-34 | a record ends up active iff its hash equals the upper-cased argument; count, order, hashes, keys and ids are unchanged; the result is true iff some stored hash matched |
| AccountStore.SetActiveMissDeactivatesAll | kyuncli/config.py:29-33 | a switch to an unknown hash returns false and still saves a store in which every record is inactive |
| AccountStore.SetActiveKeepsInvariant | kyuncli/config.py:28-32 | with unique hashes a switch leaves at most one record active, and exactly one when it reports success |
| AccountStore.LowercaseHashNeverSelected | kyuncli/config.py:28-30 | a record whose stored hash contains a lower-case letter can never be made active by a switch |
| AccountStore.UpdateMatching | kyuncli/config.py:38-44 | matching records get the new key and user id and become active; all other records become inactive and are otherwise kept |
| AccountStore.DeactivateOthers | kyuncli/config.py:48-50 | records with another hash become inactive; the rest are untouched |
| AccountStore.AddOrUpdateAccount | kyuncli/config.py:36-51 | for a known hash: same length, that record updated and active, every other record inactive with its key and id kept. For a new hash: the record is appended active and every earlier record is deactivated. The hash is not normalised |
| AccountStore.AddOrUpdateKeepsInvariant | kyuncli/config.py:38-50 | with unique hashes an upsert keeps hashes unique and leaves exactly one record active, the one with the upserted hash |
| AccountStore.AddOrUpdateActivatesDuplicates | kyuncli/config.py:38-44 | with a duplicated hash an upsert activates every copy, so the single-active rule depends on unique hashes |
| AccountStore.SubsequenceKeepsInvariant | kyuncli/config.py:56 | dropping records preserves "at most one active" and "unique hashes" |
| AccountStore.RemoveAccount | kyuncli/config.py:53-60 | every record with exactly this hash is gone and the others stay in order; the first survivor is promoted only when no survivor is active, otherwise the flags are untouched; the result is true iff the hash was stored |
| AccountStore.RemoveKeepsInvariant | kyuncli/config.py:56-58 | removal keeps at most one record active and hashes unique, and leaves exactly one active whenever any record remains |
| AccountStore.RemoveActiveOfThree | kyuncli/config.py:55-60 | removing the active record of three promotes the next record in store order and reports success |
| AccountStore.RunKeepsHealthy | kyuncli/config.py:25-60 | any sequence of switches, upserts and removals keeps hashes unique and at most one record active |
| AccountStore.UpsertRemoveKeepOneActive | kyuncli/config.py:36-60 | starting empty or with exactly one active record, upserts and removals alone keep the store empty or with exactly one active record |
| AccountStore.MissedSwitchLeavesNoneActive | kyuncli/config.py:29-33 | an upsert followed by a switch to an unknown hash leaves a one-record store with no active account |
| Seqs.Filter | kyuncli/config.py:56 | the comprehension keeps exactly the elements satisfying the condition, as a subsequence in original order, and is shorter iff some element fails it |
| Seqs.FilterConcat | kyuncli/config.py:56 | filtering a concatenation filters each part and concatenates the results |
| Seqs.Reverse | kyuncli/danbos.py:1039 | element `i` of the result is element `len - 1 - i` of the input |
| Seqs.PySuffix | kyuncli/danbos.py:1039 | Python's `s[k:]` is a suffix of `s`: of length `len(s) - k` clamped at 0 for `k >= 0`, and of length `min(len(s), -k)` for negative `k` |
| Text.Strip | kyuncli/danbos.py:893 | the result is the infix of the text left after removing Python whitespace at both ends; it is empty iff the text is all whitespace |
| Text.Split | kyuncli/danbos.py:892 | `split('\n')` always has at least one piece, no piece contains the separator, and joining the pieces gives the text back |
| Text.SplitJoin | kyuncli/danbos.py:892-899 | splitting a join of separator-free pieces gives the pieces back |
| Text.SplitAround | kyuncli/danbos.py:846-847 | the lines of `a + "\n" + b` are the lines of `a` followed by the lines of `b` |
| Text.Upper | kyuncli/config.py:28 | upper-casing keeps the length and maps each character through the ASCII case map |
| Text.Lower | kyuncli/deposits.py:96-99 | lower-casing the currency keeps the length and maps each character through the ASCII case map |
| Text.NatToString | kyuncli/utils.py:59-61 | `str(n)` is a non-empty string of decimal digits without a leading zero, with one digit iff `n < 10` |
| Text.NatToStringRoundTrip | kyuncli/utils.py:59-61 | reading back the digits of `str(n)` gives `n` |
| Text.NatToStringInjective | kyuncli/utils.py:59-61 | different day and hour counts render differently |
| Text.Preview | kyuncli/accounts.py:123 | text of at most `n` characters is kept whole; longer text becomes its first `n` characters followed by `...` |
| Text.PreviewShape | kyuncli/chat.py:49 | a preview is never longer than `n + 3` and always starts with the first `min(n, len)` characters |
| Billing.FromMicros | kyuncli/utils.py:27 | the timedelta of a difference is normalised (seconds below a day, microseconds below a second) and totals the difference |
| Billing.FromMicrosRoundTrip | kyuncli/utils.py:27 | a normalised timedelta is the one rebuilt from its total, so normalisation is unique |
| Billing.WholeSecondsIsFloor | kyuncli/utils.py:33 | `days * 86400 + seconds` is the difference floored to whole seconds |
| Billing.FormatEur | kyuncli/utils.py:7-10 | `None` renders as `€0.00`; every rendering starts with `€` and has a decimal point three characters from the end; a minus sign appears iff the amount is negative; the euro digits are `str()` of the whole euros (no leading zeros) and the last two characters are the two-digit cents |
| Billing.FormatEurRoundTrip | kyuncli/utils.py:7-10 | the euro text of any integer cent amount parses back to that amount, so the rendering loses nothing |
| Billing.TruncDiv | kyuncli/utils.py:38 | `int(a / b)` truncates toward zero: the quotient is characterised by bounds on both sides for either sign of `a` |
| Billing.ProratedCost | kyuncli/utils.py:22-43 | an unknown cycle end gives the full cost; less than a second left (or none) gives 0; otherwise the truncation toward zero of whole seconds times cost over 2 592 000 |
| Billing.ProratedCostSign | kyuncli/utils.py:38 | the prorated charge never has the opposite sign to the full cost |
| Billing.ProratedCostWholeCycles | kyuncli/utils.py:32-38 | exactly `k` 30-day cycles left charge `k` times the cost: one cycle charges the full cost and longer intervals are not capped |
| Billing.ProratedCostHalfCycle | kyuncli/utils.py:32-38 | 15 days left on a 3000-cent charge gives 1500 cents |
| Billing.ProratedCostFailOpen | kyuncli/utils.py:42-43 | a cycle end that cannot be parsed returns the full charge |
| Billing.ProratedCostAtMostFull | kyuncli/utils.py:32-38 | with at most one cycle left a non-negative charge is prorated to between 0 and itself |
| Billing.ProratedCostMonotone | kyuncli/utils.py:38 | for a non-negative charge the prorated amount does not decrease as the cycle end moves later |
| Billing.TimeRemainingLabel | kyuncli/utils.py:46-64 | `Unknown` on a parse failure, `0 days` when nothing is left, otherwise whole days (when positive) and the hours of the day in 0..23 |
| Billing.HoursOfDay | kyuncli/utils.py:55-56 | `seconds // 3600` of the timedelta is the number of whole hours in the remainder below a day, and lies in 0..23 |
| Billing.ProrationAndLabelAgree | kyuncli/utils.py:22-64 | the label is `Unknown` iff the end is unknown and `0 days` iff no time is left; a `0 days` label comes with a zero charge and `Unknown` with the full charge |
| Danbos.CheckBuySpecs | kyuncli/danbos.py:93-107 | specs pass iff cores >= 1, RAM is 0.5 or a whole number from 1 up, and disk >= 10; each error is reported exactly when it is the first failing check |
| Danbos.HalfStepsAboveOneRefused | kyuncli/danbos.py:99-104 | 0.75 GB and 1.5 GB are both refused with the "steps of 0.5" message, while 0.5 GB and 2 GB pass |
| Danbos.CheckPowerAction | kyuncli/danbos.py:466-469 | an action is accepted iff it is the name of one of start, stop, shutdown, reboot, and is then that action |
| Danbos.PowerSubcommandsAccepted | kyuncli/danbos.py:480-502 | each power subcommand's action passes the whitelist as itself |
| Danbos.AppendAuthorizedKey | kyuncli/danbos.py:846-849 | with no keys the result is the new key; otherwise its lines are the current lines followed by the new key's lines; the current text is a prefix and the new key a suffix |
| Danbos.RemoveAuthorizedKey | kyuncli/danbos.py:885-899 | empty text writes nothing. Otherwise "not found" iff every line survives. A rewrite keeps exactly the non-blank lines that do not match the stripped key, unmodified and in order, and is empty iff no line survives |
| Danbos.SurvivorsRoundTrip | kyuncli/danbos.py:892-899 | the survivors joined with newlines split back into the same lines, and their text is empty iff none survive |
| Danbos.BlankLinesCountAsRemoval | kyuncli/danbos.py:893-897 | a key list with a blank line is always rewritten and reported as a removal, whether or not the key is present |
| Danbos.StatsWindow | kyuncli/danbos.py:1015-1039 | no statistics gives no view; otherwise the heading shows `min(minutes, len)` and the rows are the last `min(minutes, len)` entries newest first for minutes >= 1, all entries for 0, and all but the first `-minutes` for negative values |
| Danbos.SummariseSpecChange | kyuncli/danbos.py:390-433 | today's line reads charge, refund or cost by the sign of the delta; today's amount is the prorated delta iff a next cycle is given and the delta is non-zero, and the whole delta otherwise; the time-remaining line appears under exactly that condition and reads `  Time remaining until next cycle: ` followed by the remaining-time label and `)` |
| Danbos.SpecChangeHeadingMatchesAmount | kyuncli/danbos.py:390-424 | the heading never contradicts the amount shown: a charge is never negative, a refund never positive, an unchanged spec costs 0 today |
| Bricks.BuyBrickPrice | kyuncli/bricks.py:109-115 | sizes below 250 GB are refused with the minimum-size message; otherwise the monthly price times 1000 is size times the per-terabyte price |
| Bricks.BuyBrickPriceAdditive | kyuncli/bricks.py:114-115 | the price of a brick is the sum of the prices of two bricks that split its size |
| Bricks.GrowFullCost | kyuncli/bricks.py:188-192 | the full-cycle cost is `add_gb * price / 1000` truncated toward zero |
| Bricks.GrowBrick | kyuncli/bricks.py:180-212 | fails iff less than 1 GB is added; next cycle's cost is always the full cost; today's charge is the prorated full cost, with the time-remaining line shown, iff a next cycle is given and the full cost is non-zero, and otherwise the full cost with no time line; the time line reads `Time remaining until next cycle: ` followed by the remaining-time label and `)` |
| Bricks.GrowChargeBounds | kyuncli/bricks.py:196-202 | with a non-negative price and at most one cycle left, today's charge lies between 0 and next cycle's cost |
| Bricks.GrowAfterCycleEnd | kyuncli/bricks.py:196-212 | once the cycle is over, today's charge is 0 and the time line reads `0 days` |
| Bricks.GrowWithoutCycleChargesFull | kyuncli/bricks.py:196-212 | without a next cycle the whole cost is charged today and no time line is shown |
| Bricks.GrowUnpricedIsFree | kyuncli/bricks.py:187-202 | a datacenter without an `hddTb` price makes growing free, with no time line |
| Accounts.SetupFailureMessage | kyuncli/accounts.py:32-43 | each of the four known API errors maps to its fixed message; any other error is reported as `Setup failed: ` followed by the error |
| Accounts.SetupFailureClassified | kyuncli/accounts.py:34-43 | a message starts with `Login failed: ` iff the error is one of the four known ones; otherwise the error text is passed through verbatim |
| Accounts.LoginAsWritten | kyuncli/accounts.py:45-63 | a hash that matches after upper-casing is switched to; any other hash never completes setup, and the saved store is the one the missed switch wrote |
| Accounts.LoginAsWrittenLosesNewAccount | kyuncli/accounts.py:49-62 | logging in with a new hash stores nothing new and leaves no active account, so the current user id is unavailable |
| Accounts.Login | kyuncli/accounts.py:45-63 | with the user id passed to the upsert, a known hash is switched to, leaving the store `set_active_account` saved, and any other hash is set up by upserting it into the store the missed switch left |
| Accounts.LoginLeavesOneActive | kyuncli/accounts.py:49-63 | with unique hashes, a corrected login always ends with exactly one active record (an active count of 1): the switched-to record, or the newly set-up one with its user id |
| Accounts.StatusColumn | kyuncli/accounts.py:73 | the status column is always eight characters; it reads `[ACTIVE]` iff the record is active and is eight spaces otherwise |
| Accounts.AccountLine | kyuncli/accounts.py:74 | a line is a space, the status column, a space and the hash (characters 0 and 9 are spaces), so the hash always starts in column 10 |
| Accounts.AccountListing | kyuncli/accounts.py:68-74 | an empty store lists `No accounts stored.`; otherwise line i is exactly AccountLine of record i: spaces at 0 and 9, `[ACTIVE]` iff active and eight spaces otherwise, then its hash |
| Accounts.ListingMarksActiveAccount | kyuncli/accounts.py:72-74 | with exactly one active record, exactly one line is marked, and it is the line of the account the active-account lookup returns |
| Accounts.KeyPreview | kyuncli/accounts.py:123 | keys of up to 50 characters are shown whole, longer ones as their first 50 characters and `...`; a missing key shows as empty |
| Accounts.ApplyAlgorithm | kyuncli/accounts.py:149-150 | the key is prefixed with the algorithm and a space iff an algorithm is given and the key does not already start with it |
| Accounts.ApplyAlgorithmShape | kyuncli/accounts.py:149-150 | the uploaded key always starts with the given algorithm and ends with the given key |
| Accounts.ApplyAlgorithmIdempotent | kyuncli/accounts.py:149-150 | applying the prefix rule twice gives the same key as applying it once |
| Accounts.SshAddKey | kyuncli/accounts.py:138-150 | a file takes precedence and its stripped contents are used; a read failure is reported; with neither file nor key an error is reported and nothing is sent |
| Accounts.SshAddKeepsPrefixedKey | kyuncli/accounts.py:145-150 | a key that already starts with its algorithm is uploaded unchanged |
| Chat.ChatName | kyuncli/chat.py:42 | the name is never empty: a missing or empty name shows as `Unnamed`, any other is shown as given |
| Chat.UnreadColumn | kyuncli/chat.py:44 | `Yes` iff the `readByUser` flag is present and falsy, `No` otherwise |
| Chat.UnreadDefaults | kyuncli/chat.py:44 | a missing flag reads as read, while an explicit `false` or `null` reads as unread |
| Chat.LastMessageColumn | kyuncli/chat.py:46-52 | an absent or empty message shows `No messages`; otherwise the author (default `Unknown`), `: `, and the content cut to 25 characters plus `...` |
| Chat.LastMessageColumnBounded | kyuncli/chat.py:48-50 | the column is at most the author, the separator and 28 characters, and content of up to 25 characters appears whole |
| Chat.ReplaceZ | kyuncli/chat.py:56 | a lone `Z` becomes `+00:00`, text without `Z` is unchanged, and no `Z` remains afterwards |
| Chat.ReplaceZConcat | kyuncli/chat.py:115 | the replacement distributes over concatenation, so with the single-character cases it fixes the whole result, other characters kept in order |
| Chat.TrailingZBecomesOffset | kyuncli/chat.py:115 | a timestamp ending in the UTC designator `Z` gets the `+00:00` offset in its place and is otherwise unchanged |
| Chat.TimestampColumn | kyuncli/chat.py:54-61 | a missing or empty timestamp shows `N/A`; otherwise the formatted instant, or `N/A` exactly when formatting fails |
| Chat.AuthorDisplay | kyuncli/chat.py:109-125 | `You` iff the author id (default `Unknown`) equals the current user's id, `Support` otherwise |
| Chat.ChatOpen | kyuncli/chat.py:86-127 | fails with `No active account.` iff no record is active, before any message is looked at; otherwise an empty chat shows the placeholder, and a non-empty one gives one line per message attributed against the first active record's user id |
| Deposits.CreateDepositRequest | kyuncli/deposits.py:90-100 | a negative amount is refused first; otherwise the request is accepted iff the lower-cased currency (default `eur`) is `eur` or `xmr`, and carries the amount and the lower-cased currency |
| Deposits.DefaultCurrencyIsEur | kyuncli/deposits.py:95-100 | taking the default currency deposits in `eur`, and an amount of 0 is accepted |
| Deposits.CurrencyCaseIgnored | kyuncli/deposits.py:96-99 | any spelling of a currency gives the same outcome as its lower-case form |
| Deposits.CreatedAtDisplay | kyuncli/deposits.py:12-17 | a missing or empty creation date shows `N/A`; otherwise the formatted instant, and a parse failure is not caught |
| Deposits.TimestampFallbacksDiffer | kyuncli/deposits.py:14-17 | with one shared parse and each view's own pattern: an empty date is `N/A` in both; a parsed date is each view's own rendering of the same instant; the deposit view fails iff the parse fails, and then the chat shows `N/A` |

## Left out

- `kyuncli/api.py` and `kyuncli/cli.py`. The first is a thin HTTP wrapper over the vendor API; the second only registers the command groups.
- Reading and writing `~/.config/kyuncli/config.json`. The store is a value that is passed in and returned. A corrupt file, which makes `json.load` raise, is not modelled.
- click prompts, confirmations and echo; column padding of tables; QR-code rendering in `print_deposit_info`.
- ISO-8601 parsing and the wall clock. Each becomes an input. The two billing helpers each call `datetime.now` themselves, so in the source they can see slightly different instants; the model gives both the same `now`.
- Billing.ProratedCost: computes `trunc(secs * cost / 2592000)` exactly. The source's floating-point `days_remaining / 30 * cost` can differ by one cent at boundaries.
- Bricks.GrowFullCost: exact integer truncation of `add_gb * price / 1000`. The source multiplies floats, which can round differently by one cent.
- Bricks.BuyBrickPrice: the price is a Dafny `real`, with no claim of bit-parity with the source's float. `format_eur` on that float is not modelled, because Billing.FormatEur covers integer cents only.
- Billing.FormatEur: covers `None` and integer cents only. Rounding of fractional cents by `:.2f` is not modelled.
- Danbos.SummariseSpecChange: takes the full-cycle delta as whole cents, whereas the source sums float per-component deltas. It does not compute those deltas, the proration factor or the Danbo buy cost, which are float arithmetic. The disk size is also divided by 1024 in `specs change` but by 1000 in `buy`.
- Text.Upper: maps ASCII letters only, where Python's `upper` maps all of Unicode. The same holds for Text.Lower in the currency check.
- Text.Strip: has no Unicode normalisation. The whitespace set is Python's `isspace` set for single code points.
- Error handling that branches on HTTP status codes appearing in exception text (for example `"500" in error_msg`). It depends on the API's message formats.
- `get_api_client` and its `No active account.` guard in handlers other than `chat open`, which all stop in the same way before calling the API.
- Deposits.CreatedAtDisplay: the failure carries the unparseable text rather than Python's exact exception message.
- `danbo stats` timestamps (`datetime.fromtimestamp`) and the byte and percentage formatting. `kyuncli/danbos.py:3` imports `format_bytes` and `format_percentage` from `kyuncli/utils.py`, which does not define them. As written, importing `kyuncli/danbos.py` therefore fails, and since `kyuncli/cli.py:4` imports it while building the `cli` group, the whole command group fails to load, account, chat and deposit commands included. Every handler is modelled as if the import succeeded, and for `danbo stats` only the row-selection rule is modelled.
- Deposit amounts that are `nan` or `inf`: `nan < 0` and `inf < 0` are both false, so the source accepts them. The model's amounts are reals.
- Danbos.CheckBuySpecs: RAM is a real, so the `nan` and `inf` values `click.prompt(type=float)` accepts are not modelled. A `nan` RAM fails every comparison and passes all guards; an `inf` RAM makes `int(ram)` raise `OverflowError`, reported as `Failed to buy Danbo: ...`.
- Chat.LastMessageColumn: the `author` and `content` fields cannot be JSON `null`. In the source a `null` content makes `len(None)` raise in `chat list`, and a `null` author prints as `None`.
- Accounts.KeyPreview: the key cannot be JSON `null`. In the source a `"key": null` makes `len(None)` raise in `account ssh list`.
- Chat.ChatOpen: a message whose `content` is JSON `null` prints `None` in the source; the model's fields cannot hold `null`.
- The remaining handlers (rename, delete, staff, privacy, rates, pending, status, balance and the like) only forward arguments to the API and print its answer.

## Findings

| source | as written | input that shows it | evidently intended | confidence | as-written member | corrected member |
|---|---|---|---|---|---|---|
| kyuncli/accounts.py:62 | `login` calls `add_or_update_account(hash_, api_key)` with two arguments, but the function requires `user_id` as well, so Python raises `TypeError`. By then the missed `set_active_account` has already saved the store with every record inactive, and an API key has been created on the server | `account login NEWHASH` for any hash not in the store | store the new account with the user id from `get_user_info()`, as `setup` does, and make it the active one | high; not executed | Accounts.LoginAsWrittenLosesNewAccount | Accounts.LoginLeavesOneActive |

=== FILE: accounts.dfy ===
/** Pure rules inside the account command handlers of kyuncli/accounts.py: how setup failures are
    reported, what `account login` does to the store, the `account list` lines, and how
    `account ssh add` assembles the key it uploads.
 */
module Accounts {
  import opened Wrappers
  import Text
  import opened AccountStore

  // ---------------------------------------------------------------------------------------------
  // account setup: error reporting

  /** The four API errors `setup` recognises as login failures. */
  predicate KnownLoginError(err: string) {
    err == "Wrong password" || err == "Invalid 2FA code" || err == "OTP is required" || err == "User not found"
  }

  /** The message `setup` prints for an exception whose text is `err`. */
  function SetupFailureMessage(err: string): (m: string)
    ensures err == "Wrong password" ==> m == "Login failed: Wrong password."
    ensures err == "Invalid 2FA code" ==> m == "Login failed: Invalid 2FA code."
    ensures err == "OTP is required" ==> m == "Login failed: 2FA is enabled but no OTP code provided."
    ensures err == "User not found" ==> m == "Login failed: User not found."
    ensures !KnownLoginError(err) ==> m == "Setup failed: " + err
  {
    if err == "Wrong password" then "Login failed: Wrong password."
    else if err == "Invalid 2FA code" then "Login failed: Invalid 2FA code."
    else if err == "OTP is required" then "Login failed: 2FA is enabled but no OTP code provided."
    else if err == "User not found" then "Login failed: User not found."
    else "Setup failed: " + err
  }

  /** A message reads as a login failure exactly for the four known errors; every other error is
      passed through verbatim after the `Setup failed: ` prefix. */
  lemma SetupFailureClassified(err: string)
    ensures "Login failed: " <= SetupFailureMessage(err) <==> KnownLoginError(err)
    ensures !KnownLoginError(err) ==> SetupFailureMessage(err)[|"Setup failed: "|..] == err
  {
    var m := SetupFailureMessage(err);
    if !KnownLoginError(err) {
      assert m[0] == 'S';
    }
  }

  // ---------------------------------------------------------------------------------------------
  // account login

  datatype LoginOutcome =
    | Switched(config: Config)                  // "Switched active account to ..."
    | SetUp(config: Config)                     // "Setup complete. API key saved and active for ..."
    | Crashed(config: Config, error: string)    // an uncaught exception, after `config` was saved

  const MissingUserId: string := "add_or_update_account() missing 1 required positional argument: 'user_id'"

  /** `login(hash_)` as written: a known (upper-cased) hash is switched to; for an unknown one the
      miss has already been saved by `set_active_account`, and the setup path then calls
      `add_or_update_account(hash_, api_key)` without the user id, which Python rejects. */
  function LoginAsWritten(c: Config, hash: string): (r: LoginOutcome)
    ensures r.Switched? <==> HasHash(c.accounts, Text.Upper(hash))
    ensures !r.SetUp? && r.config == SetActiveAccount(c, hash).config
  {
    var s := SetActiveAccount(c, hash);
    if s.result then Switched(s.config)
    else Crashed(s.config, MissingUserId)
  }

  /** As written, logging in with a new hash never stores it, and it leaves the store with no
      active account at all. */
  lemma LoginAsWrittenLosesNewAccount(c: Config, hash: string)
    requires !HasHash(c.accounts, Text.Upper(hash))
    ensures var r := LoginAsWritten(c, hash);
            && r.Crashed?
            && |r.config.accounts| == |c.accounts|
            && !SomeActive(r.config.accounts)
            && GetCurrentUserId(r.config).Failure?
  {
    SetActiveMissDeactivatesAll(c, hash);
  }

  /** `login(hash_)` with the user id passed along, as `setup` does: the new account is stored and
      made active. */
  function Login(c: Config, hash: string, apiKey: string, userId: string): (r: LoginOutcome)
    ensures r.Switched? <==> HasHash(c.accounts, Text.Upper(hash))
    ensures r.SetUp? <==> !r.Switched?
    ensures r.Switched? ==> r.config == SetActiveAccount(c, hash).config
    ensures r.SetUp? ==> r.config == AddOrUpdateAccount(SetActiveAccount(c, hash).config, hash, apiKey, userId)
  {
    var s := SetActiveAccount(c, hash);
    if s.result then Switched(s.config)
    else SetUp(AddOrUpdateAccount(s.config, hash, apiKey, userId))
  }

  /** With unique hashes, a login always ends with exactly one active account: the one switched to
      (its hash the upper-cased argument) or the one just set up (its hash as typed). */
  lemma LoginLeavesOneActive(c: Config, hash: string, apiKey: string, userId: string)
    requires UniqueHashes(c.accounts)
    ensures var r := Login(c, hash, apiKey, userId);
            && UniqueHashes(r.config.accounts)
            && ExactlyOneActive(r.config.accounts)
            && ActiveCount(r.config.accounts) == 1
            && (r.Switched? ==> forall i :: 0 <= i < |r.config.accounts| && r.config.accounts[i].active
                                   ==> r.config.accounts[i].hash == Text.Upper(hash))
            && (r.SetUp? ==> forall i :: 0 <= i < |r.config.accounts| && r.config.accounts[i].active
                                ==> r.config.accounts[i].hash == hash && r.config.accounts[i].userId == userId)
  {
    var s := SetActiveAccount(c, hash);
    SetActiveKeepsInvariant(c, hash);
    if !s.result {
      AddOrUpdateKeepsInvariant(s.config, hash, apiKey, userId);
    }
    ActiveCountAtMostOne(Login(c, hash, apiKey, userId).config.accounts);
  }

  // ---------------------------------------------------------------------------------------------
  // account list

  /** The eight-character status column. */
  function StatusColumn(active: bool): (s: string)
    ensures |s| == 8
    ensures s == "[ACTIVE]" <==> active
    ensures !active ==> s == "        "
  {
    if active then "[ACTIVE]" else "        "
  }

  /** One line of `account list`: a space, the status column, a space, the hash. */
  function AccountLine(a: Account): (line: string)
    ensures |line| == 10 + |a.hash|
    ensures line[0] == ' ' && line[9] == ' '
    ensures line[1..9] == StatusColumn(a.active)
    ensures line[10..] == a.hash
  {
    " " + StatusColumn(a.active) + " " + a.hash
  }

  /** The lines `account list` prints. */
  function AccountListing(accs: seq<Account>): (lines: seq<string>)
    ensures accs == [] ==> lines == ["No accounts stored."]
    ensures accs != [] ==> |lines| == |accs|
    ensures accs != [] ==> forall i :: 0 <= i < |accs| ==> lines[i] == AccountLine(accs[i])
    ensures accs != [] ==> forall i :: 0 <= i < |accs| ==>
              && |lines[i]| == 10 + |accs[i].hash|
              && lines[i][0] == ' ' && lines[i][9] == ' '
              && (!accs[i].active ==> lines[i][1..9] == "        ")
              && lines[i][10..] == accs[i].hash
              && (lines[i][1..9] == "[ACTIVE]" <==> accs[i].active)
  {
    if accs == [] then ["No accounts stored."]
    else seq(|accs|, i requires 0 <= i < |accs| => AccountLine(accs[i]))
  }

  /** In a store with one active account, exactly one listed line is marked, and it is the line of
      the account `get_active_account` returns. */
  lemma ListingMarksActiveAccount(c: Config)
    requires ExactlyOneActive(c.accounts)
    ensures var lines := AccountListing(c.accounts);
            var a := GetActiveAccount(c);
            && a.Some?
            && exists i :: 0 <= i < |lines| && lines[i][1..9] == "[ACTIVE]" && c.accounts[i] == a.value
                           && forall j :: 0 <= j < |lines| && j != i ==> lines[j][1..9] != "[ACTIVE]"
  {
    var lines := AccountListing(c.accounts);
    var a := GetActiveAccount(c);
    var i :| 0 <= i < |c.accounts| && c.accounts[i] == a.value && a.value.active
              && forall j :: 0 <= j < i ==> !c.accounts[j].active;
    assert lines[i][1..9] == "[ACTIVE]";
    forall j | 0 <= j < |lines| && j != i ensures lines[j][1..9] != "[ACTIVE]" {
      if j > i {
        assert !(c.accounts[i].active && c.accounts[j].active);
      }
    }
  }

  // ---------------------------------------------------------------------------------------------
  // account ssh list / ssh add

  /** The key column of `ssh list`: the first fifty characters, with `...` when cut. */
  function KeyPreview(key: Option<string>): (p: string)
    ensures |key.GetOr("")| <= 50 ==> p == key.GetOr("")
    ensures |key.GetOr("")| > 50 ==> |p| == 53 && p[..50] == key.GetOr("")[..50] && p[50..] == "..."
  {
    Text.Preview(key.GetOr(""), 50)
  }

  /** `if algo and not key.startswith(algo): key = f"{algo} {key}"`. */
  function ApplyAlgorithm(algo: Option<string>, key: string): (k: string)
    ensures algo.None? || algo.value == "" || algo.value <= key ==> k == key
    ensures algo.Some? && algo.value != "" && !(algo.value <= key) ==> k == algo.value + " " + key
  {
    if algo.Some? && algo.value != "" && !(algo.value <= key) then algo.value + " " + key else key
  }

  /** The uploaded key always starts with the requested algorithm and ends with the given key. */
  lemma ApplyAlgorithmShape(algo: Option<string>, key: string)
    ensures var k := ApplyAlgorithm(algo, key);
            && (algo.Some? ==> algo.value <= k)
            && |key| <= |k| && k[|k| - |key|..] == key
  {
    var k := ApplyAlgorithm(algo, key);
    if algo.Some? && algo.value != "" && !(algo.value <= key) {
      assert k[..|algo.value|] == algo.value;
      assert k[|k| - |key|..] == key;
    }
  }

  /** Passing the result back through the prefix rule changes nothing. */
  lemma ApplyAlgorithmIdempotent(algo: Option<string>, key: string)
    ensures ApplyAlgorithm(algo, ApplyAlgorithm(algo, key)) == ApplyAlgorithm(algo, key)
  {
    ApplyAlgorithmShape(algo, key);
  }

  /** `ssh_add` up to the upload. `file` is `None` when no path was given, otherwise the outcome of
      reading it (the contents, or the error's text); `key` is the `--key` option. A file wins
      over `--key` and is stripped; the algorithm prefix is then added when missing. */
  function SshAddKey(algo: Option<string>, key: Option<string>, file: Option<Result<string, string>>)
    : (r: Result<string, string>)
    ensures file.Some? && file.value.Failure? ==> r == Failure("Failed to read key file: " + file.value.error)
    ensures file.Some? && file.value.Success? ==> r == Success(ApplyAlgorithm(algo, Text.Strip(file.value.value)))
    ensures file.None? && key.GetOr("") == "" ==> r == Failure("Either --key or --file must be provided.")
    ensures file.None? && key.GetOr("") != "" ==> r == Success(ApplyAlgorithm(algo, key.value))
  {
    match file
    case Some(Failure(e)) => Failure("Failed to read key file: " + e)
    case Some(Success(contents)) => Success(ApplyAlgorithm(algo, Text.Strip(contents)))
    case None =>
      if key.GetOr("") == "" then Failure("Either --key or --file must be provided.")
      else Success(ApplyAlgorithm(algo, key.value))
  }

  /** A key that already carries its algorithm is uploaded unchanged, whichever way it was given. */
  lemma SshAddKeepsPrefixedKey(algo: string, body: string)
    requires algo != ""
    ensures SshAddKey(Some(algo), Some(algo + body), None) == Success(algo + body)
  {
    assert algo <= algo + body;
  }
}

=== FILE: bricks.dfy ===
/** Pure rules inside the Brick (block storage) command handlers of kyuncli/bricks.py: the minimum
    size and the monthly price of `brick buy`, and the quote `brick grow` prints before asking for
    confirmation.
 */
module Bricks {
  import opened Wrappers
  import Billing

  const MinBrickGb: int := 250

  /** Monthly price in cents of a new brick of `gb` gigabytes at `hddTb` cents per terabyte
      (`(gb / 1000) * hdd_price_per_tb`, a float in the source). */
  function BuyBrickPrice(gb: int, hddTb: int): (r: Result<real, string>)
    ensures r.Failure? <==> gb < MinBrickGb
    ensures r.Failure? ==> r.error == "Minimum brick size is 250 GB."
    ensures r.Success? ==> r.value * 1000.0 == gb as real * hddTb as real
  {
    if gb < MinBrickGb then Failure("Minimum brick size is 250 GB.")
    else Success((gb as real / 1000.0) * hddTb as real)
  }

  /** The price is linear in the size: two bricks cost what one brick of their combined size does. */
  lemma BuyBrickPriceAdditive(gb1: int, gb2: int, hddTb: int)
    requires gb1 >= MinBrickGb && gb2 >= MinBrickGb
    ensures BuyBrickPrice(gb1 + gb2, hddTb).Success?
    ensures BuyBrickPrice(gb1 + gb2, hddTb).value
              == BuyBrickPrice(gb1, hddTb).value + BuyBrickPrice(gb2, hddTb).value
  {
    var p1 := BuyBrickPrice(gb1, hddTb).value;
    var p2 := BuyBrickPrice(gb2, hddTb).value;
    var p := BuyBrickPrice(gb1 + gb2, hddTb).value;
    assert p * 1000.0 == p1 * 1000.0 + p2 * 1000.0;
  }

  /** `int(add_gb / 1000 * hdd_price_per_tb)`: the full-cycle cost of the added storage,
      truncated toward zero to whole cents. */
  function GrowFullCost(addGb: int, hddTb: int): (c: int)
    ensures addGb * hddTb >= 0 ==> 0 <= c && c * 1000 <= addGb * hddTb < c * 1000 + 1000
    ensures addGb * hddTb < 0 ==> c <= 0 && c * 1000 - 1000 < addGb * hddTb <= c * 1000
  {
    Billing.TruncDiv(addGb * hddTb, 1000)
  }

  /** What `brick grow` shows: today's charge, next cycle's cost and, when proration applied,
      the time-remaining line. */
  datatype GrowQuote = GrowQuote(chargeToday: int, nextCycleCost: int, timeLine: Option<string>)

  /** `brick_grow` up to the confirmation prompt: at least one gigabyte must be added; the charge
      today is prorated only when the brick has a next cycle and the full cost is not zero. */
  function GrowBrick(addGb: int, hddTb: int, nextCycle: Option<Billing.NextCycle>, now: int)
    : (r: Result<GrowQuote, string>)
    ensures r.Failure? <==> addGb < 1
    ensures r.Failure? ==> r.error == "Must add at least 1 GB."
    ensures r.Success? ==> r.value.nextCycleCost == GrowFullCost(addGb, hddTb)
    ensures r.Success? ==>
              (r.value.timeLine.Some? <==> Billing.Given(nextCycle) && r.value.nextCycleCost != 0)
    ensures r.Success? && r.value.timeLine.Some? ==>
              r.value.chargeToday == Billing.ProratedCost(r.value.nextCycleCost, nextCycle.value.instant, now)
    ensures r.Success? && r.value.timeLine.None? ==> r.value.chargeToday == r.value.nextCycleCost
    ensures r.Success? && r.value.timeLine.Some? ==>
              r.value.timeLine.value
                == "Time remaining until next cycle: " + Billing.TimeRemainingLabel(nextCycle.value.instant, now) + ")"
  {
    if addGb < 1 then Failure("Must add at least 1 GB.")
    else
      var full := GrowFullCost(addGb, hddTb);
      if Billing.Given(nextCycle) && full != 0 then
        var end := nextCycle.value.instant;
        Success(GrowQuote(Billing.ProratedCost(full, end, now), full,
                          Some("Time remaining until next cycle: " + Billing.TimeRemainingLabel(end, now) + ")")))
      else
        Success(GrowQuote(full, full, None))
  }

  /** With a non-negative price and at most one cycle left, today's charge lies between zero and
      next cycle's cost. */
  lemma GrowChargeBounds(addGb: int, hddTb: int, nextCycle: Option<Billing.NextCycle>, now: int)
    requires addGb >= 1 && hddTb >= 0
    requires nextCycle.Some? && nextCycle.value.instant.Some? ==>
               nextCycle.value.instant.value - now <= Billing.SecondsPerMonth * Billing.MicrosPerSecond
    ensures GrowBrick(addGb, hddTb, nextCycle, now).Success?
    ensures var q := GrowBrick(addGb, hddTb, nextCycle, now).value;
            0 <= q.chargeToday <= q.nextCycleCost
  {
    var full := GrowFullCost(addGb, hddTb);
    assert addGb * hddTb >= 0;
    if Billing.Given(nextCycle) && full != 0 {
      var end := nextCycle.value.instant;
      if end.Some? {
        Billing.ProratedCostAtMostFull(full, end.value, now);
      }
    }
  }

  /** A brick whose cycle is already over is grown for free today, and the time line says so. */
  lemma GrowAfterCycleEnd(addGb: int, hddTb: int, text: string, end: int, now: int)
    requires addGb >= 1 && text != "" && end <= now
    requires GrowFullCost(addGb, hddTb) != 0
    ensures var r := GrowBrick(addGb, hddTb, Some(Billing.NextCycle(text, Some(end))), now);
            && r.Success?
            && r.value.chargeToday == 0
            && r.value.timeLine == Some("Time remaining until next cycle: 0 days)")
  {
    Billing.ProrationAndLabelAgree(GrowFullCost(addGb, hddTb), Some(end), now);
    assert Billing.TimeRemainingLabel(Some(end), now) == "0 days";
    assert "Time remaining until next cycle: " + "0 days" + ")" == "Time remaining until next cycle: 0 days)";
  }

  /** Without a next cycle (or with an empty one) nothing is prorated: the whole cost is charged
      today and no time line appears. */
  lemma GrowWithoutCycleChargesFull(addGb: int, hddTb: int, nextCycle: Option<Billing.NextCycle>, now: int)
    requires addGb >= 1 && !Billing.Given(nextCycle)
    ensures var r := GrowBrick(addGb, hddTb, nextCycle, now);
            r.Success? && r.value.chargeToday == r.value.nextCycleCost && r.value.timeLine.None?
  {
  }

  /** A datacenter without an `hddTb` price (the `0` default) makes growing free. */
  lemma GrowUnpricedIsFree(addGb: int, nextCycle: Option<Billing.NextCycle>, now: int)
    requires addGb >= 1
    ensures var r := GrowBrick(addGb, 0, nextCycle, now);
            r.Success? && r.value.chargeToday == 0 && r.value.nextCycleCost == 0 && r.value.timeLine.None?
  {
  }
}

=== FILE: chat.dfy ===
/** Pure rules inside the support-chat command handlers of kyuncli/chat.py: the name, unread and
    last-message columns of `chat list`, the timestamp fallback, and how `chat open` attributes
    each message.
 */
module Chat {
  import opened Wrappers
  import Text
  import AccountStore

  /** A JSON value from the API, as far as Python's truthiness can tell values apart. */
  datatype Json = Null | Bool(b: bool) | Number(n: real) | Str(s: string) | Array(length: nat) | Object(size: nat)

  /** Python's `bool(v)`. */
  predicate Truthy(v: Json) {
    match v
    case Null => false
    case Bool(b) => b
    case Number(n) => n != 0.0
    case Str(s) => s != ""
    case Array(k) => k > 0
    case Object(k) => k > 0
  }

  // ---------------------------------------------------------------------------------------------
  // chat list: columns

  /** `chat.get('name') or 'Unnamed'`; `None` stands for a missing or null name. */
  function ChatName(name: Option<string>): (shown: string)
    ensures shown != ""
    ensures name.Some? && name.value != "" ==> shown == name.value
    ensures name.None? || name.value == "" ==> shown == "Unnamed"
  {
    if name.Some? && name.value != "" then name.value else "Unnamed"
  }

  /** `"Yes" if not chat.get('readByUser', True) else "No"`. */
  function UnreadColumn(readByUser: Option<Json>): (shown: string)
    ensures shown == "Yes" || shown == "No"
    ensures shown == "Yes" <==> readByUser.Some? && !Truthy(readByUser.value)
  {
    if !Truthy(readByUser.GetOr(Bool(true))) then "Yes" else "No"
  }

  /** A missing flag reads as read, but an explicit `null` (or `0`, or `""`) reads as unread. */
  lemma UnreadDefaults()
    ensures UnreadColumn(None) == "No"
    ensures UnreadColumn(Some(Bool(true))) == "No"
    ensures UnreadColumn(Some(Bool(false))) == "Yes"
    ensures UnreadColumn(Some(Null)) == "Yes"
  {
  }

  /** The `lastMessage` object of a chat: its `author` and `content` fields when present, and how
      many other fields it has (an object without fields is falsy). */
  datatype LastMessage = LastMessage(author: Option<string>, content: Option<string>, otherFields: nat)

  predicate HasFields(m: LastMessage) {
    m.author.Some? || m.content.Some? || m.otherFields > 0
  }

  /** The last-message column: `"{author}: {content}"` with the content cut to 25 characters plus
      `...`, or `No messages` when the object is absent or empty. */
  function LastMessageColumn(last: Option<LastMessage>): (shown: string)
    ensures last.None? || !HasFields(last.value) ==> shown == "No messages"
    ensures last.Some? && HasFields(last.value) ==>
              var author := last.value.author.GetOr("Unknown");
              var content := last.value.content.GetOr("");
              && |author| + 2 <= |shown|
              && shown[..|author| + 2] == author + ": "
              && shown[|author| + 2..] == Text.Preview(content, 25)
  {
    if last.Some? && HasFields(last.value) then
      var author := last.value.author.GetOr("Unknown");
      var content := last.value.content.GetOr("");
      var line := author + ": " + Text.Preview(content, 25);
      assert line[..|author| + 2] == author + ": ";
      line
    else "No messages"
  }

  /** The column is never longer than the author, the separator and 28 characters of content, and
      a content of at most 25 characters appears whole. */
  lemma LastMessageColumnBounded(m: LastMessage)
    requires HasFields(m)
    ensures var shown := LastMessageColumn(Some(m));
            var author := m.author.GetOr("Unknown");
            var content := m.content.GetOr("");
            && |shown| <= |author| + 2 + 28
            && (|content| <= 25 ==> shown == author + ": " + content)
  {
    var shown := LastMessageColumn(Some(m));
    var author := m.author.GetOr("Unknown");
    Text.PreviewShape(m.content.GetOr(""), 25);
    assert shown == shown[..|author| + 2] + shown[|author| + 2..];
  }

  // ---------------------------------------------------------------------------------------------
  // Timestamps

  /** `s.replace('Z', '+00:00')`. */
  function ReplaceZ(s: string): (r: string)
    ensures 'Z' !in r
    ensures 'Z' !in s ==> r == s
    ensures s == "Z" ==> r == "+00:00"
  {
    SubstituteZFacts(s);
    SubstituteZ(s)
  }

  /** The replacement, one character at a time. */
  function SubstituteZ(s: string): string {
    if |s| == 0 then "" else (if s[0] == 'Z' then "+00:00" else [s[0]]) + SubstituteZ(s[1..])
  }

  lemma SubstituteZFacts(s: string)
    ensures 'Z' !in SubstituteZ(s)
    ensures 'Z' !in s ==> SubstituteZ(s) == s
    ensures s == "Z" ==> SubstituteZ(s) == "+00:00"
  {
    SubstituteZRemovesZ(s);
    if 'Z' !in s {
      SubstituteZKeepsOthers(s);
    }
    if s == "Z" {
      assert s[1..] == "";
    }
  }

  lemma {:induction false} SubstituteZRemovesZ(s: string)
    ensures 'Z' !in SubstituteZ(s)
    decreases |s|
  {
    if |s| > 0 {
      SubstituteZRemovesZ(s[1..]);
    }
  }

  lemma {:induction false} SubstituteZKeepsOthers(s: string)
    requires 'Z' !in s
    ensures SubstituteZ(s) == s
    decreases |s|
  {
    if |s| > 0 {
      assert s[0] in s;
      assert forall c :: c in s[1..] ==> c in s;
      SubstituteZKeepsOthers(s[1..]);
      assert s == [s[0]] + s[1..];
    }
  }

  lemma {:induction false} SubstituteZConcat(a: string, b: string)
    ensures SubstituteZ(a + b) == SubstituteZ(a) + SubstituteZ(b)
    decreases |a|
  {
    if |a| > 0 {
      var h := if a[0] == 'Z' then "+00:00" else [a[0]];
      var ab := a + b;
      assert ab[0] == a[0] && ab[1..] == a[1..] + b;
      assert SubstituteZ(ab) == h + SubstituteZ(a[1..] + b);
      SubstituteZConcat(a[1..], b);
    } else {
      assert a + b == b;
    }
  }

  /** The replacement works piece by piece: together with the single-character cases above this
      determines the whole result, every other character kept in order. */
  lemma ReplaceZConcat(a: string, b: string)
    ensures ReplaceZ(a + b) == ReplaceZ(a) + ReplaceZ(b)
  {
    SubstituteZConcat(a, b);
  }

  /** An API timestamp's trailing UTC designator becomes the offset `fromisoformat` accepts. */
  lemma TrailingZBecomesOffset(stamp: string)
    requires 'Z' !in stamp
    ensures ReplaceZ(stamp + "Z") == stamp + "+00:00"
  {
    ReplaceZConcat(stamp, "Z");
  }

  /** `datetime.fromisoformat(t).strftime(pattern)` as one formatter: `parse` stands for
      `fromisoformat` (`None` when it raises) and `render` for one `strftime` pattern. */
  function Formatter<T>(parse: string -> Option<T>, render: T -> string): string -> Option<string> {
    t => match parse(t)
         case None => None
         case Some(d) => Some(render(d))
  }

  /** The `updatedAt` / `createdAt` columns: `N/A` when the field is missing or empty, otherwise the
      formatted instant, or `N/A` again when parsing fails (the bare `except` swallows it).
      `format` stands for `datetime.fromisoformat(...).strftime(...)`, `None` meaning it raised. */
  function TimestampColumn(raw: Option<string>, format: string -> Option<string>): (shown: string)
    ensures raw.GetOr("") == "" ==> shown == "N/A"
    ensures raw.GetOr("") != "" ==>
              (shown == "N/A" && format(ReplaceZ(raw.value)).None?) || format(ReplaceZ(raw.value)) == Some(shown)
  {
    var text := raw.GetOr("");
    if text == "" then "N/A"
    else format(ReplaceZ(text)).GetOr("N/A")
  }

  // ---------------------------------------------------------------------------------------------
  // chat open

  /** `"You" if author_id == current_user_id else "Support"`, with a missing `authorId` read as
      `Unknown`. */
  function AuthorDisplay(authorId: Option<string>, currentUserId: string): (shown: string)
    ensures shown == "You" || shown == "Support"
    ensures shown == "You" <==> authorId.GetOr("Unknown") == currentUserId
  {
    if authorId.GetOr("Unknown") == currentUserId then "You" else "Support"
  }

  /** One message of a chat: its `authorId`, `content` and `createdAt` fields when present. */
  datatype ChatMessage = ChatMessage(authorId: Option<string>, content: Option<string>, createdAt: Option<string>)

  function MessageLine(m: ChatMessage, currentUserId: string, format: string -> Option<string>): string {
    "[" + TimestampColumn(m.createdAt, format) + "] " + AuthorDisplay(m.authorId, currentUserId)
      + ": " + m.content.GetOr("")
  }

  /** The body of `chat open` for the store `c`: without an active account `get_api_client`
      stops the command before any message is fetched; otherwise a placeholder for an empty chat,
      or one line per message attributed against the active account's user id. */
  function ChatOpen(c: AccountStore.Config, messages: seq<ChatMessage>, format: string -> Option<string>)
    : (r: Result<seq<string>, string>)
    ensures r.Failure? <==> !AccountStore.SomeActive(c.accounts)
    ensures r.Failure? ==> r.error == "No active account."
    ensures r.Success? && messages == [] ==> r.value == ["No messages in this chat yet."]
    ensures r.Success? && messages != [] ==>
              && |r.value| == |messages|
              && AccountStore.GetCurrentUserId(c).Success?
              && forall i :: 0 <= i < |messages| ==>
                   r.value[i] == MessageLine(messages[i], AccountStore.GetCurrentUserId(c).value, format)
  {
    if !AccountStore.SomeActive(c.accounts) then Failure("No active account.")
    else if messages == [] then Success(["No messages in this chat yet."])
    else
      var uid := AccountStore.GetCurrentUserId(c).value;
      Success(seq(|messages|, i requires 0 <= i < |messages| => MessageLine(messages[i], uid, format)))
  }
}

=== FILE: config.dfy ===
/** The local account store of kyuncli/config.py: an ordered list of account records, at most one of
    which is meant to be active. The JSON file is replaced by an immutable `Config` value: every
    operation receives the loaded store and returns the store it saves.
 */
module AccountStore {
  import opened Wrappers
  import Seqs
  import Text

  /** One entry of `config["accounts"]`. */
  datatype Account = Account(hash: string, apiKey: string, userId: string, active: bool)

  /** The whole configuration file. */
  datatype Config = Config(accounts: seq<Account>)

  /** The store an operation writes back, together with the value it returns to its caller. */
  datatype Saved<T> = Saved(config: Config, result: T)

  // ---------------------------------------------------------------------------------------------
  // Invariants of the store

  predicate UniqueHashes(accs: seq<Account>) {
    forall i, j :: 0 <= i < j < |accs| ==> accs[i].hash != accs[j].hash
  }

  predicate AtMostOneActive(accs: seq<Account>) {
    forall i, j :: 0 <= i < j < |accs| ==> !(accs[i].active && accs[j].active)
  }

  predicate SomeActive(accs: seq<Account>) {
    exists i :: 0 <= i < |accs| && accs[i].active
  }

  predicate ExactlyOneActive(accs: seq<Account>) {
    AtMostOneActive(accs) && SomeActive(accs)
  }

  predicate HasHash(accs: seq<Account>, hash: string) {
    exists i :: 0 <= i < |accs| && accs[i].hash == hash
  }

  /** Number of active records. */
  function ActiveCount(accs: seq<Account>): nat {
    if |accs| == 0 then 0 else (if accs[0].active then 1 else 0) + ActiveCount(accs[1..])
  }

  /** The counting view and the pairwise view of "at most one active record" agree. */
  lemma {:induction false} ActiveCountAtMostOne(accs: seq<Account>)
    ensures ActiveCount(accs) <= 1 <==> AtMostOneActive(accs)
    ensures ActiveCount(accs) == 0 <==> !SomeActive(accs)
    ensures ActiveCount(accs) == 1 <==> ExactlyOneActive(accs)
  {
    if |accs| > 0 {
      var tail := accs[1..];
      ActiveCountAtMostOne(tail);
      assert forall i :: 1 <= i < |accs| ==> accs[i] == tail[i - 1];
      if SomeActive(tail) {
        var k :| 0 <= k < |tail| && tail[k].active;
        assert accs[k + 1].active;
      }
      if accs[0].active && SomeActive(tail) {
        var k :| 0 <= k < |tail| && tail[k].active;
        assert accs[k + 1].active;
        assert !AtMostOneActive(accs);
      }
      if AtMostOneActive(tail) && !(accs[0].active && SomeActive(tail)) {
        forall i, j | 0 <= i < j < |accs| ensures !(accs[i].active && accs[j].active) {
          if i > 0 {
            assert accs[i] == tail[i - 1] && accs[j] == tail[j - 1];
          }
        }
      }
      if AtMostOneActive(accs) {
        forall i, j | 0 <= i < j < |tail| ensures !(tail[i].active && tail[j].active) {
          assert accs[i + 1] == tail[i] && accs[j + 1] == tail[j];
        }
      }
    }
  }

  // ---------------------------------------------------------------------------------------------
  // load_config / list_accounts / get_active_account / get_current_user_id

  /** `load_config()`: the persisted store, or an empty account list when there is no file. */
  function LoadConfig(persisted: Option<Config>): (c: Config)
    ensures persisted.None? ==> c.accounts == []
    ensures persisted.Some? ==> c == persisted.value
  {
    persisted.GetOr(Config([]))
  }

  /** `list_accounts()`: every stored record, in file order. */
  function ListAccounts(persisted: Option<Config>): (accs: seq<Account>)
    ensures persisted.None? ==> accs == []
    ensures persisted.Some? ==> accs == persisted.value.accounts
  {
    LoadConfig(persisted).accounts
  }

  /** Index of the first active record, if any. */
  function FirstActiveIndex(accs: seq<Account>): (r: Option<nat>)
    ensures r.None? <==> !SomeActive(accs)
    ensures r.Some? ==> r.value < |accs| && accs[r.value].active
                        && forall j :: 0 <= j < r.value ==> !accs[j].active
  {
    if |accs| == 0 then None
    else if accs[0].active then Some(0)
    else
      var rest := FirstActiveIndex(accs[1..]);
      assert forall i :: 1 <= i < |accs| ==> accs[i] == accs[1..][i - 1];
      match rest
      case None => None
      case Some(k) => Some(k + 1)
  }

  /** `get_active_account()`: the first record whose `active` flag is set. */
  function GetActiveAccount(c: Config): (r: Option<Account>)
    ensures r.None? <==> !SomeActive(c.accounts)
    ensures r.Some? ==> exists i :: 0 <= i < |c.accounts| && c.accounts[i] == r.value
                          && r.value.active && forall j :: 0 <= j < i ==> !c.accounts[j].active
  {
    match FirstActiveIndex(c.accounts)
    case None => None
    case Some(i) => Some(c.accounts[i])
  }

  /** `get_current_user_id()`: the active record's `user_id`. With no active record the source
      indexes `None` and raises; that is the `Failure` here. */
  function GetCurrentUserId(c: Config): (r: Result<string, string>)
    ensures r.Failure? <==> !SomeActive(c.accounts)
    ensures r.Failure? ==> r.error == "'NoneType' object is not subscriptable"
    ensures r.Success? ==> exists i :: 0 <= i < |c.accounts| && c.accounts[i].active
                             && c.accounts[i].userId == r.value
                             && forall j :: 0 <= j < i ==> !c.accounts[j].active
  {
    match GetActiveAccount(c)
    case None => Failure("'NoneType' object is not subscriptable")
    case Some(acc) => Success(acc.userId)
  }

  // ---------------------------------------------------------------------------------------------
  // set_active_account

  /** The loop of `set_active_account`: each record becomes active exactly when its hash is `h`. */
  function MarkActive(accs: seq<Account>, h: string): (r: seq<Account>)
    ensures |r| == |accs|
    ensures forall i :: 0 <= i < |accs| ==>
              && r[i].hash == accs[i].hash && r[i].apiKey == accs[i].apiKey
              && r[i].userId == accs[i].userId
              && (r[i].active <==> accs[i].hash == h)
  {
    if |accs| == 0 then []
    else [accs[0].(active := accs[0].hash == h)] + MarkActive(accs[1..], h)
  }

  /** `set_active_account(hash_)`: upper-cases the hash, marks exactly the matching records active
      (and every other one inactive), saves, and reports whether anything matched. */
  function SetActiveAccount(c: Config, hash: string): (s: Saved<bool>)
    ensures |s.config.accounts| == |c.accounts|
    ensures forall i :: 0 <= i < |c.accounts| ==>
              var a := c.accounts[i]; var b := s.config.accounts[i];
              b.hash == a.hash && b.apiKey == a.apiKey && b.userId == a.userId
              && (b.active <==> a.hash == Text.Upper(hash))
    ensures s.result <==> HasHash(c.accounts, Text.Upper(hash))
  {
    var accs := MarkActive(c.accounts, Text.Upper(hash));
    Saved(Config(accs), SomeActive(accs))
  }

  /** A switch to an unknown hash is not a no-op: it still rewrites the store, with every record
      inactive. */
  lemma SetActiveMissDeactivatesAll(c: Config, hash: string)
    requires !HasHash(c.accounts, Text.Upper(hash))
    ensures var s := SetActiveAccount(c, hash);
            !s.result && !SomeActive(s.config.accounts)
            && forall i :: 0 <= i < |c.accounts| ==> s.config.accounts[i] == c.accounts[i].(active := false)
  {
  }

  /** With unique hashes a switch leaves at most one record active, and exactly one on a hit. */
  lemma SetActiveKeepsInvariant(c: Config, hash: string)
    requires UniqueHashes(c.accounts)
    ensures var s := SetActiveAccount(c, hash);
            UniqueHashes(s.config.accounts) && AtMostOneActive(s.config.accounts)
            && (s.result ==> ExactlyOneActive(s.config.accounts))
  {
    var s := SetActiveAccount(c, hash);
    if s.result {
      var h := Text.Upper(hash);
      var k :| 0 <= k < |c.accounts| && c.accounts[k].hash == h;
      assert s.config.accounts[k].active;
    }
  }

  /** A record stored under a hash with a lower-case ASCII letter can never be selected again,
      because only the argument of `set_active_account` is upper-cased. */
  lemma LowercaseHashNeverSelected(c: Config, k: nat, hash: string)
    requires k < |c.accounts| && Text.Upper(c.accounts[k].hash) != c.accounts[k].hash
    ensures !SetActiveAccount(c, hash).config.accounts[k].active
  {
    Text.UpperIdempotent(hash);
  }

  // ---------------------------------------------------------------------------------------------
  // add_or_update_account

  /** The first loop of `add_or_update_account`: matching records take the new key and user id and
      become active, all others become inactive. */
  function UpdateMatching(accs: seq<Account>, h: string, apiKey: string, userId: string): (r: seq<Account>)
    ensures |r| == |accs|
    ensures forall i :: 0 <= i < |accs| ==>
              r[i] == if accs[i].hash == h then accs[i].(apiKey := apiKey, userId := userId, active := true)
                      else accs[i].(active := false)
  {
    if |accs| == 0 then []
    else
      var a := accs[0];
      var a' := if a.hash == h then a.(apiKey := apiKey, userId := userId, active := true) else a.(active := false);
      [a'] + UpdateMatching(accs[1..], h, apiKey, userId)
  }

  /** The loop after the append: records with another hash become inactive. */
  function DeactivateOthers(accs: seq<Account>, h: string): (r: seq<Account>)
    ensures |r| == |accs|
    ensures forall i :: 0 <= i < |accs| ==>
              r[i] == if accs[i].hash != h then accs[i].(active := false) else accs[i]
  {
    if |accs| == 0 then []
    else
      var a := accs[0];
      [if a.hash != h then a.(active := false) else a] + DeactivateOthers(accs[1..], h)
  }

  /** `add_or_update_account(hash_, api_key, user_id)`. The hash is compared as given (no
      upper-casing). */
  function AddOrUpdateAccount(c: Config, hash: string, apiKey: string, userId: string): (r: Config)
    ensures HasHash(c.accounts, hash) ==>
              && |r.accounts| == |c.accounts|
              && forall i :: 0 <= i < |c.accounts| ==>
                   var a := c.accounts[i]; var b := r.accounts[i];
                   b.hash == a.hash
                   && (a.hash == hash ==> b.apiKey == apiKey && b.userId == userId && b.active)
                   && (a.hash != hash ==> b.apiKey == a.apiKey && b.userId == a.userId && !b.active)
    ensures !HasHash(c.accounts, hash) ==>
              && |r.accounts| == |c.accounts| + 1
              && r.accounts[|c.accounts|] == Account(hash, apiKey, userId, true)
              && forall i :: 0 <= i < |c.accounts| ==> r.accounts[i] == c.accounts[i].(active := false)
  {
    var updated := UpdateMatching(c.accounts, hash, apiKey, userId);
    if !HasHash(updated, hash) then
      Config(DeactivateOthers(updated + [Account(hash, apiKey, userId, true)], hash))
    else
      Config(updated)
  }

  /** With unique hashes, an upsert keeps hashes unique and leaves exactly one record active: the
      one it wrote. */
  lemma AddOrUpdateKeepsInvariant(c: Config, hash: string, apiKey: string, userId: string)
    requires UniqueHashes(c.accounts)
    ensures var r := AddOrUpdateAccount(c, hash, apiKey, userId);
            UniqueHashes(r.accounts) && ExactlyOneActive(r.accounts)
            && forall i :: 0 <= i < |r.accounts| ==> (r.accounts[i].active <==> r.accounts[i].hash == hash)
  {
    var r := AddOrUpdateAccount(c, hash, apiKey, userId);
    if HasHash(c.accounts, hash) {
      var k :| 0 <= k < |c.accounts| && c.accounts[k].hash == hash;
      assert r.accounts[k].active;
    } else {
      assert r.accounts[|c.accounts|].active;
    }
  }

  /** Without unique hashes the single-active rule fails: an upsert activates every duplicate. */
  lemma AddOrUpdateActivatesDuplicates()
    ensures var c := Config([Account("H", "k1", "u1", false), Account("H", "k2", "u2", false)]);
            var r := AddOrUpdateAccount(c, "H", "k3", "u3");
            r.accounts[0].active && r.accounts[1].active
  {
    var c := Config([Account("H", "k1", "u1", false), Account("H", "k2", "u2", false)]);
    assert c.accounts[0].hash == "H";
  }

  // ---------------------------------------------------------------------------------------------
  // remove_account

  /** `[acc for acc in accounts if acc["hash"] != hash_]` */
  function Without(accs: seq<Account>, hash: string): seq<Account> {
    Seqs.Filter(accs, (a: Account) => a.hash != hash)
  }

  /** Dropping records keeps "at most one active" and "unique hashes". */
  lemma {:induction false} SubsequenceKeepsInvariant(a: seq<Account>, b: seq<Account>)
    requires Seqs.IsSubsequence(a, b)
    ensures AtMostOneActive(b) ==> AtMostOneActive(a)
    ensures UniqueHashes(b) ==> UniqueHashes(a)
    ensures forall i :: 0 <= i < |a| ==> a[i] in b
    decreases |b|
  {
    if |a| > 0 && |b| > 0 {
      var bt := b[1..];
      assert AtMostOneActive(b) ==> AtMostOneActive(bt) by {
        if AtMostOneActive(b) {
          forall i, j | 0 <= i < j < |bt| ensures !(bt[i].active && bt[j].active) {
            assert bt[i] == b[i + 1] && bt[j] == b[j + 1];
          }
        }
      }
      assert UniqueHashes(b) ==> UniqueHashes(bt) by {
        if UniqueHashes(b) {
          forall i, j | 0 <= i < j < |bt| ensures bt[i].hash != bt[j].hash {
            assert bt[i] == b[i + 1] && bt[j] == b[j + 1];
          }
        }
      }
      if a[0] == b[0] {
        var at := a[1..];
        SubsequenceKeepsInvariant(at, bt);
        forall i | 0 <= i < |a| ensures a[i] in b {
          if i > 0 { assert a[i] == at[i - 1]; assert at[i - 1] in bt; }
        }
        // every later element of `a` sits at some position of `b` after 0
        assert forall x :: x in at ==> x in bt;
        if AtMostOneActive(b) {
          forall i, j | 0 <= i < j < |a| ensures !(a[i].active && a[j].active) {
            if i == 0 {
              assert a[j] == at[j - 1];
              var m :| 0 <= m < |bt| && bt[m] == a[j];
              assert b[m + 1] == a[j];
            } else {
              assert a[i] == at[i - 1] && a[j] == at[j - 1];
            }
          }
        }
        if UniqueHashes(b) {
          forall i, j | 0 <= i < j < |a| ensures a[i].hash != a[j].hash {
            if i == 0 {
              assert a[j] == at[j - 1];
              var m :| 0 <= m < |bt| && bt[m] == a[j];
              assert b[m + 1] == a[j];
            } else {
              assert a[i] == at[i - 1] && a[j] == at[j - 1];
            }
          }
        }
      } else {
        SubsequenceKeepsInvariant(a, bt);
      }
    }
  }

  /** The self-healing step of `remove_account`: promote the first record when none is active. */
  function PromoteFirstIfNoneActive(accs: seq<Account>): seq<Account> {
    if |accs| > 0 && !SomeActive(accs) then [accs[0].(active := true)] + accs[1..] else accs
  }

  /** `remove_account(hash_)`: drops every record with exactly this hash (no upper-casing), keeps
      the rest in order, promotes the first survivor if none of them is active, and reports whether
      the list got shorter. */
  function RemoveAccount(c: Config, hash: string): (s: Saved<bool>)
    ensures var kept := Without(c.accounts, hash);
            && |s.config.accounts| == |kept|
            && (forall i :: 0 <= i < |kept| ==> s.config.accounts[i].hash != hash)
            && (|kept| > 0 && !SomeActive(kept) ==>
                  s.config.accounts[0] == kept[0].(active := true) && s.config.accounts[1..] == kept[1..])
            && (|kept| == 0 || SomeActive(kept) ==> s.config.accounts == kept)
    ensures s.result <==> HasHash(c.accounts, hash)
  {
    var kept := Without(c.accounts, hash);
    Saved(Config(PromoteFirstIfNoneActive(kept)), |kept| < |c.accounts|)
  }

  /** Removing from a store with at most one active record leaves at most one active, keeps hashes
      unique, and leaves exactly one active whenever any record remains. */
  lemma RemoveKeepsInvariant(c: Config, hash: string)
    requires AtMostOneActive(c.accounts)
    ensures var r := RemoveAccount(c, hash).config.accounts;
            && AtMostOneActive(r)
            && (|r| > 0 ==> ExactlyOneActive(r))
            && (UniqueHashes(c.accounts) ==> UniqueHashes(r))
  {
    var kept := Without(c.accounts, hash);
    SubsequenceKeepsInvariant(kept, c.accounts);
    var r := RemoveAccount(c, hash).config.accounts;
    if |kept| > 0 && !SomeActive(kept) {
      assert r[0].active;
      forall i, j | 0 <= i < j < |r| ensures !(r[i].active && r[j].active) {
        assert r[j] == kept[j];
      }
      forall i, j | 0 <= i < j < |r| ensures r[i].hash != r[j].hash || !UniqueHashes(c.accounts) {
        assert r[i].hash == kept[i].hash && r[j] == kept[j];
      }
    }
  }

  /** The scenario of removing the active record from a store of three: the next record in store
      order takes over and the list shrinks by one. */
  lemma RemoveActiveOfThree()
    ensures var c := Config([Account("A", "ka", "ua", true), Account("B", "kb", "ub", false),
                             Account("C", "kc", "uc", false)]);
            var s := RemoveAccount(c, "A");
            s.result
            && s.config.accounts == [Account("B", "kb", "ub", true), Account("C", "kc", "uc", false)]
  {
    var a := Account("A", "ka", "ua", true);
    var b := Account("B", "kb", "ub", false);
    var d := Account("C", "kc", "uc", false);
    var keep := (x: Account) => x.hash != "A";
    assert keep(b) && keep(d) && !keep(a);
    assert [a, b, d][1..] == [b, d] && [b, d][1..] == [d] && [d][1..] == [];
    assert Seqs.Filter([d], keep) == [d];
    assert Seqs.Filter([b, d], keep) == [b, d];
    assert Seqs.Filter([a, b, d], keep) == [b, d];
    assert !SomeActive([b, d]);
  }

  // ---------------------------------------------------------------------------------------------
  // Sequences of commands

  datatype Command =
    | SwitchTo(hash: string)
    | Upsert(hash: string, apiKey: string, userId: string)
    | Remove(hash: string)

  function Apply(c: Config, cmd: Command): Config {
    match cmd
    case SwitchTo(h) => SetActiveAccount(c, h).config
    case Upsert(h, k, u) => AddOrUpdateAccount(c, h, k, u)
    case Remove(h) => RemoveAccount(c, h).config
  }

  function Run(c: Config, cmds: seq<Command>): Config
    decreases |cmds|
  {
    if |cmds| == 0 then c else Run(Apply(c, cmds[0]), cmds[1..])
  }

  predicate Healthy(c: Config) {
    UniqueHashes(c.accounts) && AtMostOneActive(c.accounts)
  }

  /** Every command keeps hashes unique and at most one record active. */
  lemma {:induction false} RunKeepsHealthy(c: Config, cmds: seq<Command>)
    requires Healthy(c)
    ensures Healthy(Run(c, cmds))
    decreases |cmds|
  {
    if |cmds| > 0 {
      match cmds[0] {
        case SwitchTo(h) => SetActiveKeepsInvariant(c, h);
        case Upsert(h, k, u) => AddOrUpdateKeepsInvariant(c, h, k, u);
        case Remove(h) => RemoveKeepsInvariant(c, h);
      }
      RunKeepsHealthy(Apply(c, cmds[0]), cmds[1..]);
    }
  }

  predicate NoSwitches(cmds: seq<Command>) {
    forall i :: 0 <= i < |cmds| ==> !cmds[i].SwitchTo?
  }

  /** Starting from a healthy store that is empty or has one active record, upserts and removals
      alone keep it empty or with exactly one active record. */
  lemma {:induction false} UpsertRemoveKeepOneActive(c: Config, cmds: seq<Command>)
    requires Healthy(c) && (c.accounts == [] || ExactlyOneActive(c.accounts))
    requires NoSwitches(cmds)
    ensures var r := Run(c, cmds);
            Healthy(r) && (r.accounts == [] || ExactlyOneActive(r.accounts))
    decreases |cmds|
  {
    if |cmds| > 0 {
      assert !cmds[0].SwitchTo?;
      match cmds[0] {
        case Upsert(h, k, u) => AddOrUpdateKeepsInvariant(c, h, k, u);
        case Remove(h) => RemoveKeepsInvariant(c, h);
      }
      assert NoSwitches(cmds[1..]) by {
        forall i | 0 <= i < |cmds[1..]| ensures !cmds[1..][i].SwitchTo? {
          assert cmds[1..][i] == cmds[i + 1];
        }
      }
      UpsertRemoveKeepOneActive(Apply(c, cmds[0]), cmds[1..]);
    }
  }

  /** The "always exactly one active" rule does not survive a switch to an unknown hash. */
  lemma MissedSwitchLeavesNoneActive()
    ensures var c := Run(Config([]), [Upsert("A", "k", "u"), SwitchTo("B")]);
            |c.accounts| == 1 && !SomeActive(c.accounts)
  {
    var c1 := AddOrUpdateAccount(Config([]), "A", "k", "u");
    assert c1.accounts == [Account("A", "k", "u", true)];
    assert Text.Upper("B") == "B";
    assert [Upsert("A", "k", "u"), SwitchTo("B")][1..] == [SwitchTo("B")];
  }
}

=== FILE: danbos.dfy ===
/** Pure rules inside the Danbo (virtual machine) command handlers of kyuncli/danbos.py: the spec
    guards of `danbo buy`, the power-action whitelist, editing of the authorized-keys text, the
    window of rows `danbo stats` prints, and how `specs change` labels today's amount.
 */
module Danbos {
  import opened Wrappers
  import Text
  import Seqs
  import Billing

  // ---------------------------------------------------------------------------------------------
  // danbo buy: spec guards

  datatype SpecError = CoresTooFew | RamTooSmall | RamNotHalfStep | DiskTooSmall

  function SpecErrorMessage(e: SpecError): string {
    match e
    case CoresTooFew => "Cores must be at least 1."
    case RamTooSmall => "RAM must be at least 0.5 GB."
    case RamNotHalfStep => "RAM must be increased/decreased in steps of 0.5."
    case DiskTooSmall => "Disk must be at least 10 GB."
  }

  /** Python's `int(x)`: truncation toward zero. */
  function Trunc(x: real): int {
    if x >= 0.0 then x.Floor else -((-x).Floor)
  }

  predicate IsWhole(x: real) {
    x == x.Floor as real
  }

  /** RAM the buy command accepts: half a gigabyte, or a whole number of gigabytes from one up. */
  predicate ValidRam(ram: real) {
    ram == 0.5 || (ram >= 1.0 && IsWhole(ram))
  }

  predicate ValidSpecs(cores: int, ram: real, disk: int) {
    cores >= 1 && ValidRam(ram) && disk >= 10
  }

  /** The guards of `danbo_buy`, checked in order; the first that fails names the error. */
  function CheckBuySpecs(cores: int, ram: real, disk: int): (r: Option<SpecError>)
    ensures r.None? <==> ValidSpecs(cores, ram, disk)
    ensures r == Some(CoresTooFew) <==> cores < 1
    ensures r == Some(RamTooSmall) <==> cores >= 1 && ram < 0.5
    ensures r == Some(RamNotHalfStep) <==> cores >= 1 && ram >= 0.5 && !ValidRam(ram)
    ensures r == Some(DiskTooSmall) <==> cores >= 1 && ValidRam(ram) && disk < 10
  {
    if cores < 1 then Some(CoresTooFew)
    else if ram < 0.5 then Some(RamTooSmall)
    else if ram > 0.5 && ram < 1.0 then Some(RamNotHalfStep)
    else if ram >= 1.0 && ram != Trunc(ram) as real then Some(RamNotHalfStep)
    else if disk < 10 then Some(DiskTooSmall)
    else None
  }

  /** Although the message speaks of "steps of 0.5", only 0.5 itself is accepted below whole
      gigabytes: 1.5 GB is refused with that very message. */
  lemma HalfStepsAboveOneRefused()
    ensures CheckBuySpecs(1, 1.5, 10) == Some(RamNotHalfStep)
    ensures CheckBuySpecs(1, 0.75, 10) == Some(RamNotHalfStep)
    ensures CheckBuySpecs(1, 0.5, 10).None? && CheckBuySpecs(1, 2.0, 10).None?
  {
    assert (1.5).Floor == 1;
    assert (2.0).Floor == 2;
  }

  // ---------------------------------------------------------------------------------------------
  // _power_action

  datatype PowerAction = Start | Stop | Shutdown | Reboot

  function ActionName(a: PowerAction): string {
    match a
    case Start => "start"
    case Stop => "stop"
    case Shutdown => "shutdown"
    case Reboot => "reboot"
  }

  /** The whitelist of `_power_action`: only the four known actions reach the API. */
  function CheckPowerAction(action: string): (r: Result<PowerAction, string>)
    ensures r.Success? ==> ActionName(r.value) == action
    ensures r.Failure? <==> forall a: PowerAction :: ActionName(a) != action
    ensures r.Failure? ==> r.error == "Invalid power action. Must be start, stop, shutdown, or reboot."
  {
    if action == "start" then Success(Start)
    else if action == "stop" then Success(Stop)
    else if action == "shutdown" then Success(Shutdown)
    else if action == "reboot" then Success(Reboot)
    else Failure("Invalid power action. Must be start, stop, shutdown, or reboot.")
  }

  /** Each of the `power start|stop|shutdown|reboot` subcommands passes the whitelist unchanged. */
  lemma PowerSubcommandsAccepted(a: PowerAction)
    ensures CheckPowerAction(ActionName(a)) == Success(a)
  {
  }

  // ---------------------------------------------------------------------------------------------
  // ssh add-to-authorized / remove-from-authorized

  /** The authorized-keys text after `add-to-authorized`: the new key on a line of its own after
      the current lines, or the key alone when there are no keys yet. */
  function AppendAuthorizedKey(current: string, newKey: string): (r: string)
    ensures current == "" ==> r == newKey
    ensures current != "" ==> Text.Split(r, '\n') == Text.Split(current, '\n') + Text.Split(newKey, '\n')
    ensures current <= r && |newKey| <= |r| && r[|r| - |newKey|..] == newKey
  {
    if current != "" then
      Text.SplitAround(current, newKey, '\n');
      current + "\n" + newKey
    else newKey
  }

  datatype RemoveOutcome =
    | NoKeys                    // "No authorized keys to remove."
    | KeyNotFound               // "Key not found in authorized keys."
    | Rewritten(keys: string)   // the text written back

  /** A line survives removal when it is neither blank nor, once stripped, the stripped key. */
  predicate Survives(line: string, target: string) {
    Text.Strip(line) != "" && Text.Strip(line) != target
  }

  function SurvivingLines(lines: seq<string>, target: string): seq<string> {
    Seqs.Filter(lines, (l: string) => Survives(l, target))
  }

  /** `ssh_remove_from_authorized`: empty text writes nothing; otherwise the lines that survive
      are written back, in order and unmodified, unless every line survived. */
  function RemoveAuthorizedKey(current: string, key: string): (r: RemoveOutcome)
    ensures r == NoKeys <==> current == ""
    ensures current != "" ==>
              var lines := Text.Split(current, '\n');
              var target := Text.Strip(key);
              && (r == KeyNotFound <==> forall i :: 0 <= i < |lines| ==> Survives(lines[i], target))
              && (r.Rewritten? ==>
                    && (r.keys == "" <==> forall i :: 0 <= i < |lines| ==> !Survives(lines[i], target))
                    && (r.keys != "" ==>
                          var out := Text.Split(r.keys, '\n');
                          && out == SurvivingLines(lines, target)
                          && Seqs.IsSubsequence(out, lines)
                          && (forall j :: 0 <= j < |out| ==> Survives(out[j], target))
                          && (forall i :: 0 <= i < |lines| && Survives(lines[i], target) ==> lines[i] in out)))
  {
    if current == "" then NoKeys
    else
      var lines := Text.Split(current, '\n');
      var kept := SurvivingLines(lines, Text.Strip(key));
      if |lines| == |kept| then KeyNotFound
      else
        RewriteFacts(lines, Text.Strip(key));
        Rewritten(Text.Join(kept, '\n'))
  }

  /** What the rewritten text says about the lines it came from. */
  lemma RewriteFacts(lines: seq<string>, target: string)
    requires forall i :: 0 <= i < |lines| ==> '\n' !in lines[i]
    ensures var kept := SurvivingLines(lines, target);
            var text := Text.Join(kept, '\n');
            && (text == "" <==> forall i :: 0 <= i < |lines| ==> !Survives(lines[i], target))
            && (text != "" ==>
                  var out := Text.Split(text, '\n');
                  && out == kept
                  && Seqs.IsSubsequence(out, lines)
                  && (forall j :: 0 <= j < |out| ==> Survives(out[j], target))
                  && (forall i :: 0 <= i < |lines| && Survives(lines[i], target) ==> lines[i] in out))
  {
    var kept := SurvivingLines(lines, target);
    SurvivorsRoundTrip(lines, target);
    if |kept| > 0 {
      assert Survives(kept[0], target);
      assert kept[0] in lines;
    }
  }

  /** The survivors, joined with newlines, split back into the same list (when there are any),
      and their text is empty exactly when none survived. */
  lemma SurvivorsRoundTrip(lines: seq<string>, target: string)
    requires forall i :: 0 <= i < |lines| ==> '\n' !in lines[i]
    ensures var kept := SurvivingLines(lines, target);
            && (|kept| >= 1 ==> Text.Split(Text.Join(kept, '\n'), '\n') == kept)
            && (Text.Join(kept, '\n') == "" <==> |kept| == 0)
  {
    var kept := SurvivingLines(lines, target);
    if |kept| >= 1 {
      assert forall j :: 0 <= j < |kept| ==> '\n' !in kept[j] by {
        forall j | 0 <= j < |kept| ensures '\n' !in kept[j] {
          var i :| 0 <= i < |lines| && lines[i] == kept[j];
        }
      }
      Text.SplitJoin(kept, '\n');
      assert Survives(kept[0], target);
    }
  }

  /** Blank lines are not a match, yet dropping them counts as a removal: a key list with an empty
      line but without the key is rewritten without the blank and reported as removed. */
  lemma BlankLinesCountAsRemoval(current: string, key: string)
    requires current != ""
    requires var lines := Text.Split(current, '\n');
             (exists i :: 0 <= i < |lines| && Text.Strip(lines[i]) == "")
    ensures RemoveAuthorizedKey(current, key).Rewritten?
  {
    var lines := Text.Split(current, '\n');
    var i :| 0 <= i < |lines| && Text.Strip(lines[i]) == "";
    assert !Survives(lines[i], Text.Strip(key));
  }

  // ---------------------------------------------------------------------------------------------
  // danbo stats

  /** What `danbo stats` prints: the count in the heading and the rows, newest first. */
  datatype StatsView<T> = StatsView(headingCount: int, rows: seq<T>)

  /** `min(minutes, len(stats))` and `reversed(stats[-minutes:])`; `None` when there are no
      statistics at all. */
  function StatsWindow<T>(stats: seq<T>, minutes: int): (v: Option<StatsView<T>>)
    ensures v.None? <==> stats == []
    ensures v.Some? ==>
              && v.value.headingCount == Seqs.Min(minutes, |stats|)
              && |v.value.rows| <= |stats|
              && (forall i :: 0 <= i < |v.value.rows| ==> v.value.rows[i] == stats[|stats| - 1 - i])
              && (minutes >= 1 ==> |v.value.rows| == Seqs.Min(minutes, |stats|))
              && (minutes == 0 ==> |v.value.rows| == |stats|)
              && (minutes < 0 ==> |v.value.rows| == if -minutes <= |stats| then |stats| + minutes else 0)
  {
    if stats == [] then None
    else
      var window := Seqs.PySuffix(stats, -minutes);
      Some(StatsView(Seqs.Min(minutes, |stats|), Seqs.Reverse(window)))
  }

  // ---------------------------------------------------------------------------------------------
  // specs change: how today's amount is presented

  datatype TodayKind = Charge | Refund | Unchanged

  /** The heading of today's line. */
  function TodayHeading(k: TodayKind): string {
    match k
    case Charge => "Total charge today: "
    case Refund => "Total refund today: "
    case Unchanged => "Total cost today: "
  }

  /** What `specs change` prints about today: the kind of line, the amount in cents, and the
      time-remaining line when one is shown. */
  datatype SpecChangeSummary = SpecChangeSummary(kind: TodayKind, today: int, timeLine: Option<string>)

  /** For a full-cycle cost delta in cents: the line reads charge, refund or cost by the sign of
      the delta; the amount is prorated, and the time-remaining line shown, exactly when the Danbo
      has a next cycle and the delta is not zero. */
  function SummariseSpecChange(delta: int, nextCycle: Option<Billing.NextCycle>, now: int): (s: SpecChangeSummary)
    ensures s.kind == Charge <==> delta > 0
    ensures s.kind == Refund <==> delta < 0
    ensures s.kind == Unchanged <==> delta == 0
    ensures s.timeLine.Some? <==> Billing.Given(nextCycle) && delta != 0
    ensures s.timeLine.None? ==> s.today == delta
    ensures s.timeLine.Some? ==> s.today == Billing.ProratedCost(delta, nextCycle.value.instant, now)
    ensures s.timeLine.Some? ==>
              s.timeLine.value
                == "  Time remaining until next cycle: " + Billing.TimeRemainingLabel(nextCycle.value.instant, now) + ")"
  {
    var kind := if delta > 0 then Charge else if delta < 0 then Refund else Unchanged;
    if Billing.Given(nextCycle) && delta != 0 then
      var end := nextCycle.value.instant;
      SpecChangeSummary(kind, Billing.ProratedCost(delta, end, now),
                        Some("  Time remaining until next cycle: " + Billing.TimeRemainingLabel(end, now) + ")"))
    else
      SpecChangeSummary(kind, delta, None)
  }

  /** The heading never contradicts the amount: a charge is never negative, a refund never
      positive, and an unchanged spec costs nothing today. */
  lemma SpecChangeHeadingMatchesAmount(delta: int, nextCycle: Option<Billing.NextCycle>, now: int)
    ensures var s := SummariseSpecChange(delta, nextCycle, now);
            && (s.kind == Charge ==> s.today >= 0)
            && (s.kind == Refund ==> s.today <= 0)
            && (s.kind == Unchanged ==> s.today == 0)
  {
    if Billing.Given(nextCycle) && delta != 0 {
      Billing.ProratedCostSign(delta, nextCycle.value.instant, now);
    }
  }
}

=== FILE: deposits.dfy ===
/** Pure rules inside the deposit command handlers of kyuncli/deposits.py: validation and
    normalisation of `deposit create`, and the creation date `print_deposit_info` shows.
 */
module Deposits {
  import opened Wrappers
  import Text
  import Chat

  /** What `deposit create` sends to the API. */
  datatype DepositRequest = DepositRequest(amount: real, currency: string)

  /** A currency the command accepts, in any letter case. */
  predicate AcceptedCurrency(c: string) {
    Text.Lower(c) == "eur" || Text.Lower(c) == "xmr"
  }

  /** `deposit_create` up to the API call. `currency` is the answer to the currency prompt, `None`
      when its default was taken. The amount is checked first, then the currency, which is sent
      lower-cased. */
  function CreateDepositRequest(amount: real, currency: Option<string>): (r: Result<DepositRequest, string>)
    ensures amount < 0.0 ==> r == Failure("Amount must be >= 0.")
    ensures amount >= 0.0 ==> (r.Success? <==> AcceptedCurrency(currency.GetOr("eur")))
    ensures amount >= 0.0 && r.Failure? ==> r.error == "Invalid currency. Must be eur or xmr."
    ensures r.Success? ==>
              && r.value.amount == amount
              && (r.value.currency == "eur" || r.value.currency == "xmr")
              && r.value.currency == Text.Lower(currency.GetOr("eur"))
  {
    if amount < 0.0 then Failure("Amount must be >= 0.")
    else
      var c := currency.GetOr("eur");
      if !(Text.Lower(c) in ["eur", "xmr"]) then Failure("Invalid currency. Must be eur or xmr.")
      else Success(DepositRequest(amount, Text.Lower(c)))
  }

  /** Taking the default deposits in euros; a zero amount is accepted. */
  lemma DefaultCurrencyIsEur(amount: real)
    requires amount >= 0.0
    ensures CreateDepositRequest(amount, None) == Success(DepositRequest(amount, "eur"))
    ensures CreateDepositRequest(0.0, None).Success?
  {
    assert Text.Lower("eur") == "eur";
  }

  /** The letter case of the answer does not matter: the request is the same as for its
      lower-case form. */
  lemma CurrencyCaseIgnored(amount: real, c: string)
    ensures CreateDepositRequest(amount, Some(c)) == CreateDepositRequest(amount, Some(Text.Lower(c)))
  {
    Text.LowerIdempotent(c);
  }

  /** `Created` in `print_deposit_info`: `N/A` when `createdAt` is missing or empty; otherwise the
      formatted instant. Unlike the chat columns nothing catches a parse failure here, so it
      surfaces as an error (carrying the text that failed to parse) to the calling command. */
  function CreatedAtDisplay(createdAt: Option<string>, format: string -> Option<string>): (r: Result<string, string>)
    ensures createdAt.GetOr("") == "" ==> r == Success("N/A")
    ensures createdAt.GetOr("") != "" ==>
              match format(Chat.ReplaceZ(createdAt.value))
              case Some(shown) => r == Success(shown)
              case None => r == Failure(Chat.ReplaceZ(createdAt.value))
  {
    var text := createdAt.GetOr("");
    if text == "" then Success("N/A")
    else
      match format(Chat.ReplaceZ(text))
      case Some(shown) => Success(shown)
      case None => Failure(Chat.ReplaceZ(text))
  }

  /** The deposit view (pattern `%Y-%m-%d %H:%M:%S`) and the chat columns (`%Y-%m-%d %H:%M`) share
      the parse but not the pattern. A missing or empty date shows `N/A` in both; a parsed one is
      each view's own rendering of the same instant; one that fails to parse shows `N/A` in the
      chat while the deposit command fails. */
  lemma TimestampFallbacksDiffer<T>(raw: Option<string>, parse: string -> Option<T>,
                                    chatRender: T -> string, depositRender: T -> string)
    ensures var deposit := CreatedAtDisplay(raw, Chat.Formatter(parse, depositRender));
            var chat := Chat.TimestampColumn(raw, Chat.Formatter(parse, chatRender));
            && (raw.GetOr("") == "" ==> deposit == Success("N/A") && chat == "N/A")
            && (deposit.Failure? <==> raw.GetOr("") != "" && parse(Chat.ReplaceZ(raw.value)).None?)
            && (deposit.Failure? ==> chat == "N/A")
            && (raw.GetOr("") != "" && parse(Chat.ReplaceZ(raw.value)).Some? ==>
                  var d := parse(Chat.ReplaceZ(raw.value)).value;
                  deposit == Success(depositRender(d)) && chat == chatRender(d))
  {
  }
}

=== FILE: seqs.dfy ===
/** Sequence operations shared by the account store, the authorized-keys editor and the stats view:
    Python list comprehensions with an `if`, `reversed(...)`, and suffix slices `s[k:]`.
 */
module Seqs {

  /** `a` can be obtained from `b` by deleting elements, keeping the order of the rest. */
  predicate IsSubsequence<T(==)>(a: seq<T>, b: seq<T>)
    decreases |b|
  {
    if |a| == 0 then true
    else if |b| == 0 then false
    else if a[0] == b[0] then IsSubsequence(a[1..], b[1..])
    else IsSubsequence(a, b[1..])
  }

  /** `[x for x in s if keep(x)]`: the satisfying elements, in order, each as often as it occurs. */
  function Filter<T(==)>(s: seq<T>, keep: T -> bool): (r: seq<T>)
    ensures |r| <= |s|
    ensures forall i :: 0 <= i < |r| ==> keep(r[i])
    ensures forall i :: 0 <= i < |r| ==> r[i] in s
    ensures forall i :: 0 <= i < |s| && keep(s[i]) ==> s[i] in r
    ensures |r| == |s| <==> forall i :: 0 <= i < |s| ==> keep(s[i])
    ensures IsSubsequence(r, s)
  {
    ComprehensionFacts(s, keep);
    Comprehension(s, keep)
  }

  /** The comprehension, one element at a time. */
  function Comprehension<T>(s: seq<T>, keep: T -> bool): seq<T> {
    if |s| == 0 then [] else (if keep(s[0]) then [s[0]] else []) + Comprehension(s[1..], keep)
  }

  lemma ComprehensionFacts<T>(s: seq<T>, keep: T -> bool)
    ensures var r := Comprehension(s, keep);
            && |r| <= |s|
            && (forall i :: 0 <= i < |r| ==> keep(r[i]))
            && (forall i :: 0 <= i < |r| ==> r[i] in s)
            && (forall i :: 0 <= i < |s| && keep(s[i]) ==> s[i] in r)
            && (|r| == |s| <==> forall i :: 0 <= i < |s| ==> keep(s[i]))
            && IsSubsequence(r, s)
  {
    ComprehensionLength(s, keep);
    ComprehensionSound(s, keep);
    ComprehensionComplete(s, keep);
    ComprehensionSubsequence(s, keep);
  }

  /** One unfolding of the comprehension, stated once so the inductive proofs below can share it. */
  lemma ComprehensionStep<T>(s: seq<T>, keep: T -> bool)
    requires |s| > 0
    ensures keep(s[0]) ==> Comprehension(s, keep) == [s[0]] + Comprehension(s[1..], keep)
    ensures !keep(s[0]) ==> Comprehension(s, keep) == Comprehension(s[1..], keep)
  {
  }

  lemma {:induction false} ComprehensionLength<T>(s: seq<T>, keep: T -> bool)
    ensures |Comprehension(s, keep)| <= |s|
    ensures |Comprehension(s, keep)| == |s| <==> forall i :: 0 <= i < |s| ==> keep(s[i])
    decreases |s|
  {
    if |s| > 0 {
      ComprehensionStep(s, keep);
      ComprehensionLength(s[1..], keep);
      if forall i :: 0 <= i < |s| ==> keep(s[i]) {
        assert forall i :: 0 <= i < |s[1..]| ==> keep(s[1..][i]) by {
          forall i | 0 <= i < |s[1..]| ensures keep(s[1..][i]) { assert s[1..][i] == s[i + 1]; }
        }
      } else if keep(s[0]) {
        var k :| 0 <= k < |s| && !keep(s[k]);
        assert s[1..][k - 1] == s[k];
      }
    }
  }

  lemma {:induction false} ComprehensionSound<T>(s: seq<T>, keep: T -> bool)
    ensures var r := Comprehension(s, keep);
            forall i :: 0 <= i < |r| ==> keep(r[i]) && r[i] in s
    decreases |s|
  {
    if |s| > 0 {
      ComprehensionStep(s, keep);
      ComprehensionSound(s[1..], keep);
      var rest := Comprehension(s[1..], keep);
      assert forall x :: x in s[1..] ==> x in s;
      if keep(s[0]) {
        var r := [s[0]] + rest;
        forall i | 0 <= i < |r| ensures keep(r[i]) && r[i] in s {
          if i > 0 { assert r[i] == rest[i - 1]; }
        }
      }
    }
  }

  lemma {:induction false} ComprehensionComplete<T>(s: seq<T>, keep: T -> bool)
    ensures forall i :: 0 <= i < |s| && keep(s[i]) ==> s[i] in Comprehension(s, keep)
    decreases |s|
  {
    if |s| > 0 {
      ComprehensionStep(s, keep);
      ComprehensionComplete(s[1..], keep);
      forall i | 0 <= i < |s| && keep(s[i]) ensures s[i] in Comprehension(s, keep) {
        if i > 0 { assert s[i] == s[1..][i - 1]; }
      }
    }
  }

  lemma {:induction false} ComprehensionSubsequence<T>(s: seq<T>, keep: T -> bool)
    ensures IsSubsequence(Comprehension(s, keep), s)
    decreases |s|
  {
    if |s| > 0 {
      ComprehensionStep(s, keep);
      ComprehensionSubsequence(s[1..], keep);
      var rest := Comprehension(s[1..], keep);
      if keep(s[0]) {
        assert ([s[0]] + rest)[1..] == rest;
      } else if |rest| > 0 {
        ComprehensionSound(s[1..], keep);
        assert keep(rest[0]);
      }
    }
  }

  lemma {:induction false} ComprehensionConcat<T>(s: seq<T>, t: seq<T>, keep: T -> bool)
    ensures Comprehension(s + t, keep) == Comprehension(s, keep) + Comprehension(t, keep)
    decreases |s|
  {
    if |s| == 0 {
      assert s + t == t;
    } else {
      var h := if keep(s[0]) then [s[0]] else [];
      var st := s + t;
      assert st[0] == s[0] && st[1..] == s[1..] + t;
      assert Comprehension(st, keep) == h + Comprehension(s[1..] + t, keep);
      ComprehensionConcat(s[1..], t, keep);
      assert Comprehension(s, keep) == h + Comprehension(s[1..], keep);
    }
  }

  /** Filtering distributes over concatenation: together with the single-element case this pins down
      exactly which elements survive, and in which order. */
  lemma FilterConcat<T>(s: seq<T>, t: seq<T>, keep: T -> bool)
    ensures Filter(s + t, keep) == Filter(s, keep) + Filter(t, keep)
  {
    ComprehensionConcat(s, t, keep);
  }

  /** `list(reversed(s))` */
  function Reverse<T>(s: seq<T>): (r: seq<T>)
    ensures |r| == |s|
    ensures forall i :: 0 <= i < |s| ==> r[i] == s[|s| - 1 - i]
  {
    if |s| == 0 then [] else Reverse(s[1..]) + [s[0]]
  }

  /** Python's suffix slice `s[start:]`, where a negative `start` counts from the end and an
      out-of-range `start` is clamped rather than rejected. */
  function PySuffix<T>(s: seq<T>, start: int): (r: seq<T>)
    ensures |r| == if start >= 0 then (if start <= |s| then |s| - start else 0) else Min(|s|, -start)
    ensures r == s[|s| - |r|..]
  {
    var k := if start >= 0 then (if start <= |s| then start else |s|)
             else (if -start <= |s| then |s| + start else 0);
    s[k..]
  }

  function Min(a: int, b: int): int {
    if a <= b then a else b
  }
}

=== FILE: text.dfy ===
/** The Python string operations the command handlers rely on, on `string` = `seq<char>`
    (one `char` per Unicode code point, as Python's `len` counts them).
 */
module Text {

  /** Python's `str.isspace()` for a single character. */
  predicate IsSpace(c: char) {
    || c == ' '
    || ('\t' <= c <= '\r')
    || ('\U{1c}' <= c <= '\U{1f}')
    || c == '\U{85}' || c == '\U{a0}' || c == '\U{1680}'
    || ('\U{2000}' <= c <= '\U{200a}')
    || c == '\U{2028}' || c == '\U{2029}' || c == '\U{202f}' || c == '\U{205f}' || c == '\U{3000}'
  }

  /** Every character of `s` is whitespace (vacuously so for the empty string). */
  predicate AllSpace(s: string) {
    forall k :: 0 <= k < |s| ==> IsSpace(s[k])
  }

  /** Number of whitespace characters at the front of `s`. */
  function LeadingSpaces(s: string): (n: nat)
    ensures n <= |s|
    ensures forall k :: 0 <= k < n ==> IsSpace(s[k])
    ensures n < |s| ==> !IsSpace(s[n])
  {
    if |s| == 0 || !IsSpace(s[0]) then 0 else 1 + LeadingSpaces(s[1..])
  }

  /** Number of whitespace characters at the back of `s`. */
  function TrailingSpaces(s: string): (n: nat)
    ensures n <= |s|
    ensures forall k :: |s| - n <= k < |s| ==> IsSpace(s[k])
    ensures n < |s| ==> !IsSpace(s[|s| - 1 - n])
  {
    if |s| == 0 || !IsSpace(s[|s| - 1]) then 0 else 1 + TrailingSpaces(s[..|s| - 1])
  }

  /** Python's `s.strip()`: the infix of `s` left after removing whitespace from both ends. */
  function Strip(s: string): (r: string)
    ensures r == [] || (!IsSpace(r[0]) && !IsSpace(r[|r| - 1]))
    ensures r == [] <==> AllSpace(s)
    ensures var i := LeadingSpaces(s);
              && i + |r| <= |s| && r == s[i..i + |r|]
              && AllSpace(s[i + |r|..])
  {
    var i := LeadingSpaces(s);
    var j := TrailingSpaces(s[i..]);
    StripInfix(s, i, j);
    s[i..|s| - j]
  }

  /** The infix between `i` leading and `j` trailing whitespace characters has Strip's properties. */
  lemma StripInfix(s: string, i: nat, j: nat)
    requires i <= |s| && j <= |s| - i
    requires forall k :: 0 <= k < i ==> IsSpace(s[k])
    requires i < |s| ==> !IsSpace(s[i])
    requires forall k :: |s| - i - j <= k < |s| - i ==> IsSpace(s[i..][k])
    requires j < |s| - i ==> !IsSpace(s[i..][|s| - i - 1 - j])
    ensures var r := s[i..|s| - j];
            && (r == [] || (!IsSpace(r[0]) && !IsSpace(r[|r| - 1])))
            && (r == [] <==> AllSpace(s))
            && i + |r| <= |s| && r == s[i..i + |r|]
            && AllSpace(s[i + |r|..])
  {
    StripTail(s, i, j);
    StripEnds(s, i, j);
    var tail := s[|s| - j..];
    forall k | 0 <= k < |tail| ensures IsSpace(tail[k]) {
      assert tail[k] == s[|s| - j + k];
    }
  }

  /** What is cut after the leading whitespace is whitespace, and the rest is empty exactly when
      everything is. */
  lemma StripTail(s: string, i: nat, j: nat)
    requires i <= |s| && j <= |s| - i
    requires forall k :: 0 <= k < i ==> IsSpace(s[k])
    requires i < |s| ==> !IsSpace(s[i])
    requires forall k :: |s| - i - j <= k < |s| - i ==> IsSpace(s[i..][k])
    ensures forall k :: |s| - j <= k < |s| ==> IsSpace(s[k])
    ensures s[i..|s| - j] == [] <==> forall k :: 0 <= k < |s| ==> IsSpace(s[k])
  {
    forall k | |s| - j <= k < |s| ensures IsSpace(s[k]) {
      assert s[k] == s[i..][k - i];
    }
  }

  lemma StripEnds(s: string, i: nat, j: nat)
    requires i <= |s| && j <= |s| - i
    requires i < |s| ==> !IsSpace(s[i])
    requires j < |s| - i ==> !IsSpace(s[i..][|s| - i - 1 - j])
    ensures var r := s[i..|s| - j]; r != [] ==> !IsSpace(r[0]) && !IsSpace(r[|r| - 1])
  {
    var r := s[i..|s| - j];
    if r != [] {
      assert r[0] == s[i];
      assert r[|r| - 1] == s[i..][|s| - i - 1 - j];
    }
  }

  /** Position of the first occurrence of `c` in `s`. */
  function IndexOf(s: string, c: char): (i: nat)
    requires c in s
    ensures i < |s| && s[i] == c && c !in s[..i]
  {
    if s[0] == c then 0 else 1 + IndexOf(s[1..], c)
  }

  /** A character found at `j` with no earlier occurrence is the one `IndexOf` finds. */
  lemma {:induction false} IndexOfAt(s: string, c: char, j: nat)
    requires j < |s| && s[j] == c && c !in s[..j]
    ensures IndexOf(s, c) == j
  {
    if j > 0 {
      assert s[0] == s[..j][0];
      assert s[1..][..j - 1] == s[..j][1..];
      IndexOfAt(s[1..], c, j - 1);
    }
  }

  /** Python's `sep.join(parts)` for a one-character separator. */
  function Join(parts: seq<string>, sep: char): string
  {
    if |parts| == 0 then ""
    else if |parts| == 1 then parts[0]
    else parts[0] + [sep] + Join(parts[1..], sep)
  }

  /** Python's `s.split(sep)` for a one-character separator: never empty, no piece contains the
      separator, and joining the pieces back gives `s`. */
  function Split(s: string, sep: char): (parts: seq<string>)
    ensures |parts| >= 1
    ensures forall k :: 0 <= k < |parts| ==> sep !in parts[k]
    ensures Join(parts, sep) == s
    decreases |s|
  {
    if sep !in s then [s]
    else
      var i := IndexOf(s, sep);
      var rest := Split(s[i + 1..], sep);
      assert s == s[..i] + [sep] + s[i + 1..];
      [s[..i]] + rest
  }

  /** Splitting undoes joining, as long as no piece holds the separator. */
  lemma {:induction false} SplitJoin(parts: seq<string>, sep: char)
    requires |parts| >= 1
    requires forall k :: 0 <= k < |parts| ==> sep !in parts[k]
    ensures Split(Join(parts, sep), sep) == parts
    decreases |parts|
  {
    if |parts| == 1 {
      assert Join(parts, sep) == parts[0];
    } else {
      var s := Join(parts, sep);
      var tail := Join(parts[1..], sep);
      assert s == parts[0] + [sep] + tail;
      assert s[|parts[0]|] == sep;
      assert s[..|parts[0]|] == parts[0];
      IndexOfAt(s, sep, |parts[0]|);
      var i := IndexOf(s, sep);
      assert s[i + 1..] == tail;
      SplitJoin(parts[1..], sep);
      assert Split(s, sep) == [parts[0]] + parts[1..];
    }
  }

  /** Joining two non-empty lists of pieces puts one separator between them. */
  lemma {:induction false} JoinAppend(p: seq<string>, q: seq<string>, sep: char)
    requires |p| >= 1 && |q| >= 1
    ensures Join(p + q, sep) == Join(p, sep) + [sep] + Join(q, sep)
    decreases |p|
  {
    if |p| == 1 {
      assert (p + q)[1..] == q;
    } else {
      assert (p + q)[1..] == p[1..] + q;
      JoinAppend(p[1..], q, sep);
    }
  }

  /** The lines of `a + [sep] + b` are the lines of `a` followed by the lines of `b`. */
  lemma SplitAround(a: string, b: string, sep: char)
    ensures Split(a + [sep] + b, sep) == Split(a, sep) + Split(b, sep)
  {
    var p := Split(a, sep);
    var q := Split(b, sep);
    JoinAppend(p, q, sep);
    assert forall k :: 0 <= k < |p + q| ==> sep !in (p + q)[k] by {
      forall k | 0 <= k < |p + q| ensures sep !in (p + q)[k] {
        if k >= |p| { assert (p + q)[k] == q[k - |p|]; }
      }
    }
    SplitJoin(p + q, sep);
  }

  function UpperChar(c: char): char {
    if 'a' <= c <= 'z' then (c as int - 32) as char else c
  }

  function LowerChar(c: char): char {
    if 'A' <= c <= 'Z' then (c as int + 32) as char else c
  }

  /** `s.upper()`, restricted to the ASCII letters. */
  function Upper(s: string): (r: string)
    ensures |r| == |s|
    ensures forall k :: 0 <= k < |s| ==> r[k] == UpperChar(s[k])
  {
    seq(|s|, k requires 0 <= k < |s| => UpperChar(s[k]))
  }

  /** `s.lower()`, restricted to the ASCII letters. */
  function Lower(s: string): (r: string)
    ensures |r| == |s|
    ensures forall k :: 0 <= k < |s| ==> r[k] == LowerChar(s[k])
  {
    seq(|s|, k requires 0 <= k < |s| => LowerChar(s[k]))
  }

  /** Upper-casing is idempotent, so a hash that went through `Upper` once is a fixed point. */
  lemma UpperIdempotent(s: string)
    ensures Upper(Upper(s)) == Upper(s)
  {
  }

  /** Lower-casing is idempotent. */
  lemma LowerIdempotent(s: string)
    ensures Lower(Lower(s)) == Lower(s)
  {
  }

  predicate IsDigit(c: char) {
    '0' <= c <= '9'
  }

  function DigitChar(d: nat): (c: char)
    requires d < 10
    ensures IsDigit(c)
  {
    (48 + d) as char
  }

  function DigitValue(c: char): nat
    requires IsDigit(c)
  {
    c as int - 48
  }

  /** Value of a string of decimal digits (the inverse of `NatToString`). */
  function DigitsValue(s: string): nat
    requires forall k :: 0 <= k < |s| ==> IsDigit(s[k])
  {
    if |s| == 0 then 0 else 10 * DigitsValue(s[..|s| - 1]) + DigitValue(s[|s| - 1])
  }

  /** Python's `str(n)` for `n >= 0`: decimal digits, no sign, no leading zero. */
  function NatToString(n: nat): (s: string)
    ensures |s| >= 1
    ensures forall k :: 0 <= k < |s| ==> IsDigit(s[k])
    ensures |s| > 1 ==> s[0] != '0'
    ensures n < 10 <==> |s| == 1
  {
    if n < 10 then [DigitChar(n)] else NatToString(n / 10) + [DigitChar(n % 10)]
  }

  /** Reading back the digits of `str(n)` gives `n`. */
  lemma {:induction false} NatToStringRoundTrip(n: nat)
    ensures DigitsValue(NatToString(n)) == n
  {
    if n >= 10 {
      var s := NatToString(n);
      assert s[..|s| - 1] == NatToString(n / 10);
      NatToStringRoundTrip(n / 10);
    }
  }

  /** Different numbers have different decimal renderings. */
  lemma NatToStringInjective(m: nat, n: nat)
    requires NatToString(m) == NatToString(n)
    ensures m == n
  {
    NatToStringRoundTrip(m);
    NatToStringRoundTrip(n);
  }

  /** Python's `s[:n] + "..." if len(s) > n else s`. */
  function Preview(s: string, n: nat): (r: string)
    ensures |s| <= n ==> r == s
    ensures |s| > n ==> |r| == n + 3 && r[..n] == s[..n] && r[n..] == "..."
  {
    if |s| > n then s[..n] + "..." else s
  }

  /** A preview never exceeds `n + 3` characters and always starts with the first
      `min(n, |s|)` characters of `s`. */
  lemma PreviewShape(s: string, n: nat)
    ensures |Preview(s, n)| <= n + 3
    ensures var m := if |s| <= n then |s| else n; Preview(s, n)[..m] == s[..m]
  {
  }
}

=== FILE: utils.dfy ===
/** The billing helpers of kyuncli/utils.py: euro formatting of cent amounts, proration of a
    full-cycle charge over the time left until the next billing cycle, and the matching
    "time remaining" label.

    Instants are integers counting microseconds. Parsing the ISO-8601 `nextCycle` text (and the
    aware/naive comparison that can fail after it) is not modelled: its outcome arrives as an
    `Option<int>`, `None` standing for every case in which the source lands in its `except` branch.
    The wall clock arrives as the parameter `now`.
 */
module Billing {
  import opened Wrappers
  import Text

  const MicrosPerSecond: int := 1_000_000
  const SecondsPerHour: int := 3_600
  const SecondsPerDay: int := 86_400
  const MicrosPerHour: int := 3_600_000_000
  const MicrosPerDay: int := 86_400_000_000
  /** `days_in_month` in `calculate_prorated_cost`: a fixed 30-day cycle. */
  const DaysInMonth: int := 30
  const SecondsPerMonth: int := 2_592_000

  /** The `nextCycle` field of a Danbo or Brick: its raw text and the instant it parses to. */
  datatype NextCycle = NextCycle(text: string, instant: Option<int>)

  /** `if next_cycle and ...`: the field is present and not the empty string. */
  predicate Given(nc: Option<NextCycle>) {
    nc.Some? && nc.value.text != ""
  }

  // ---------------------------------------------------------------------------------------------
  // Python's datetime.timedelta

  /** A `timedelta` as Python stores it: `days` may be negative, the other two fields are
      normalised into one day and one second respectively. */
  datatype TimeDelta = TimeDelta(days: int, seconds: int, microseconds: int)

  predicate Normalised(d: TimeDelta) {
    0 <= d.seconds < SecondsPerDay && 0 <= d.microseconds < MicrosPerSecond
  }

  function TotalMicros(d: TimeDelta): int {
    d.days * MicrosPerDay + d.seconds * MicrosPerSecond + d.microseconds
  }

  /** The `timedelta` that `end - now` produces for a difference of `us` microseconds. */
  function FromMicros(us: int): (d: TimeDelta)
    ensures Normalised(d)
    ensures TotalMicros(d) == us
  {
    var rest := us % MicrosPerDay;
    TimeDelta(us / MicrosPerDay, rest / MicrosPerSecond, rest % MicrosPerSecond)
  }

  /** Normalisation is unique: a normalised delta is rebuilt from its total. */
  lemma FromMicrosRoundTrip(d: TimeDelta)
    requires Normalised(d)
    ensures FromMicros(TotalMicros(d)) == d
  {
    var us := TotalMicros(d);
    var within := d.seconds * MicrosPerSecond + d.microseconds;
    assert 0 <= within < MicrosPerDay;
    assert us == d.days * MicrosPerDay + within;
    DivModUnique(us, MicrosPerDay, d.days, within);
    DivModUnique(within, MicrosPerSecond, d.seconds, d.microseconds);
  }

  lemma DivModUnique(a: int, b: int, q: int, r: int)
    requires b > 0 && a == q * b + r && 0 <= r < b
    ensures a / b == q && a % b == r
  {
    var q' := a / b;
    var r' := a % b;
    assert (q' - q) * b == r - r';
    if q' > q {
      MulAtLeast(q' - q, b);
    }
    if q' < q {
      MulAtLeast(q - q', b);
    }
  }

  lemma MulAtLeast(x: int, b: int)
    requires x >= 1 && b > 0
    ensures x * b >= b
  {
    assert (x - 1) * b >= 0;
  }

  /** `td.days * 86400 + td.seconds`: the whole seconds of the delta, microseconds dropped. */
  function WholeSeconds(d: TimeDelta): int {
    d.days * SecondsPerDay + d.seconds
  }

  /** Dropping the microseconds of a `timedelta` is flooring its length to whole seconds. */
  lemma WholeSecondsIsFloor(us: int)
    ensures WholeSeconds(FromMicros(us)) == us / MicrosPerSecond
  {
    var d := FromMicros(us);
    assert us == WholeSeconds(d) * MicrosPerSecond + d.microseconds;
    DivModUnique(us, MicrosPerSecond, WholeSeconds(d), d.microseconds);
  }

  // ---------------------------------------------------------------------------------------------
  // format_eur

  function TwoDigits(n: nat): (s: string)
    requires n < 100
    ensures |s| == 2 && Text.IsDigit(s[0]) && Text.IsDigit(s[1])
  {
    [Text.DigitChar(n / 10), Text.DigitChar(n % 10)]
  }

  function Abs(x: int): nat {
    if x < 0 then -x else x
  }

  /** `format_eur(value)` for an integer number of cents: `None` renders as `€0.00`, otherwise the
      euro sign, a minus for negative amounts, the whole euros, a point and two cent digits. */
  function FormatEur(value: Option<int>): (s: string)
    ensures value.None? ==> s == "€0.00"
    ensures |s| >= 5 && s[0] == '€' && s[|s| - 3] == '.'
    ensures value.Some? ==> (s[1] == '-' <==> value.value < 0)
    ensures value.Some? ==>
              var euros := s[(if value.value < 0 then 2 else 1)..|s| - 3];
              && euros == Text.NatToString(Abs(value.value) / 100)
              && s[|s| - 2..] == TwoDigits(Abs(value.value) % 100)
  {
    match value
    case None => "€0.00"
    case Some(c) =>
      var sign := if c < 0 then "-" else "";
      var whole := Text.NatToString(Abs(c) / 100);
      assert whole[0] != '-';
      "€" + sign + (whole + "." + TwoDigits(Abs(c) % 100))
  }

  predicate AllDigits(s: string) {
    forall k :: 0 <= k < |s| ==> Text.IsDigit(s[k])
  }

  /** Reads back a string of the shape `FormatEur` produces. */
  function ParseEur(s: string): Option<int> {
    if |s| < 2 || s[0] != '€' then None
    else if s[1] == '-' then
      match ParseAmount(s[2..])
      case None => None
      case Some(v) => Some(-(v as int))
    else
      match ParseAmount(s[1..])
      case None => None
      case Some(v) => Some(v as int)
  }

  /** Reads `<digits>.<two digits>` as a number of cents. */
  function ParseAmount(u: string): Option<nat> {
    if |u| < 4 || u[|u| - 3] != '.' || !AllDigits(u[..|u| - 3]) || !AllDigits(u[|u| - 2..]) then None
    else Some(100 * Text.DigitsValue(u[..|u| - 3]) + Text.DigitsValue(u[|u| - 2..]))
  }

  /** The euro string of a cent amount determines the amount: reading it back gives it again. */
  lemma FormatEurRoundTrip(c: int)
    ensures ParseEur(FormatEur(Some(c))) == Some(c)
  {
    var n := Abs(c);
    var whole := Text.NatToString(n / 100);
    Text.NatToStringRoundTrip(n / 100);
    TwoDigitsValue(n % 100);
    ParseEurShape(c < 0, whole, TwoDigits(n % 100));
  }

  lemma TwoDigitsValue(n: nat)
    requires n < 100
    ensures Text.DigitsValue(TwoDigits(n)) == n
  {
    var cents := TwoDigits(n);
    assert cents[..1] == [Text.DigitChar(n / 10)];
    assert Text.DigitsValue(cents[..1]) == n / 10;
  }

  /** `ParseEur` on a string of the shape `FormatEur` builds. */
  lemma ParseEurShape(negative: bool, whole: string, cents: string)
    requires |whole| >= 1 && AllDigits(whole) && |cents| == 2 && AllDigits(cents)
    ensures var v := 100 * Text.DigitsValue(whole) + Text.DigitsValue(cents);
            ParseEur("€" + (if negative then "-" else "") + (whole + "." + cents))
              == Some(if negative then -v else v)
  {
    var u := whole + "." + cents;
    var v := 100 * Text.DigitsValue(whole) + Text.DigitsValue(cents);
    ParseAmountShape(whole, cents);
    if negative {
      ParseEurSigned(u, v);
    } else {
      assert "€" + "" == "€";
      assert u[0] == whole[0];
      ParseEurUnsigned(u, v);
    }
  }

  lemma ParseEurSigned(u: string, v: nat)
    requires ParseAmount(u) == Some(v)
    ensures ParseEur("€" + "-" + u) == Some(-(v as int))
  {
    var s := "€" + "-" + u;
    assert s[2..] == u;
  }

  lemma ParseEurUnsigned(u: string, v: nat)
    requires ParseAmount(u) == Some(v) && |u| >= 1 && u[0] != '-'
    ensures ParseEur("€" + u) == Some(v)
  {
    var s := "€" + u;
    assert s[1..] == u;
  }

  lemma ParseAmountShape(whole: string, cents: string)
    requires |whole| >= 1 && AllDigits(whole) && |cents| == 2 && AllDigits(cents)
    ensures ParseAmount(whole + "." + cents) == Some(100 * Text.DigitsValue(whole) + Text.DigitsValue(cents))
  {
    var u := whole + "." + cents;
    assert u[..|u| - 3] == whole;
    assert u[|u| - 2..] == cents;
    assert u[|u| - 3] == '.';
  }

  // ---------------------------------------------------------------------------------------------
  // calculate_prorated_cost

  /** Python's `int(x / b)` for a positive divisor: division truncated toward zero. */
  function TruncDiv(a: int, b: int): (q: int)
    requires b > 0
    ensures a >= 0 ==> q >= 0 && q * b <= a < q * b + b
    ensures a < 0 ==> q <= 0 && q * b - b < a <= q * b
  {
    if a >= 0 then a / b else -((-a) / b)
  }

  /** `calculate_prorated_cost(cost, next_cycle)`: the share of a full 30-day cycle's cost that
      the whole seconds left until the next cycle represent, truncated toward zero; zero once the
      cycle is over (or less than a second is left); the full cost when the cycle end is unknown. */
  function ProratedCost(cost: int, end: Option<int>, now: int): (r: int)
    ensures end.None? ==> r == cost
    ensures end.Some? && end.value - now < MicrosPerSecond ==> r == 0
    ensures end.Some? && end.value - now >= MicrosPerSecond ==>
              var secs := (end.value - now) / MicrosPerSecond;
              && (secs * cost >= 0 ==> r * SecondsPerMonth <= secs * cost < r * SecondsPerMonth + SecondsPerMonth)
              && (secs * cost < 0 ==> r * SecondsPerMonth - SecondsPerMonth < secs * cost <= r * SecondsPerMonth)
  {
    match end
    case None => cost
    case Some(e) =>
      var remaining := e - now;
      if remaining <= 0 then 0
      else
        var td := FromMicros(remaining);
        var secs := WholeSeconds(td);
        WholeSecondsIsFloor(remaining);
        if secs <= 0 then 0
        else TruncDiv(secs * cost, SecondsPerMonth)
  }

  /** The prorated charge never has the opposite sign to the full cost. */
  lemma ProratedCostSign(cost: int, end: Option<int>, now: int)
    ensures cost >= 0 ==> ProratedCost(cost, end, now) >= 0
    ensures cost <= 0 ==> ProratedCost(cost, end, now) <= 0
  {
    if end.Some? && end.value - now >= MicrosPerSecond {
      var secs := (end.value - now) / MicrosPerSecond;
      assert secs >= 1;
      if cost >= 0 { assert secs * cost >= 0; }
      if cost < 0 { assert secs * cost < 0; }
    }
  }

  /** Exactly one 30-day cycle left charges the full cost; `k` cycles charge `k` times the cost,
      so nothing caps the result at the full cost. */
  lemma ProratedCostWholeCycles(cost: int, now: int, k: nat)
    requires k >= 1
    ensures ProratedCost(cost, Some(now + k * SecondsPerMonth * MicrosPerSecond), now) == k * cost
  {
    var rem := k * SecondsPerMonth * MicrosPerSecond;
    DivModUnique(rem, MicrosPerSecond, k * SecondsPerMonth, 0);
    var secs := k * SecondsPerMonth;
    var r := ProratedCost(cost, Some(now + rem), now);
    assert secs * cost == (k * cost) * SecondsPerMonth;
    if secs * cost >= 0 {
      assert r * SecondsPerMonth <= (k * cost) * SecondsPerMonth < r * SecondsPerMonth + SecondsPerMonth;
      MulStrictBound(r, k * cost, SecondsPerMonth);
    } else {
      assert r * SecondsPerMonth - SecondsPerMonth < (k * cost) * SecondsPerMonth <= r * SecondsPerMonth;
      MulStrictBound(k * cost, r, SecondsPerMonth);
    }
  }

  /** `x * b <= y * b < x * b + b` pins `y` to `x`. */
  lemma MulStrictBound(x: int, y: int, b: int)
    requires b > 0 && x * b <= y * b < x * b + b
    ensures x == y
  {
    assert (y - x) * b == y * b - x * b;
    if y > x {
      MulAtLeast(y - x, b);
    }
    if y < x {
      MulAtLeast(x - y, b);
    }
  }

  /** Half a cycle left on a 3000-cent charge costs 1500 cents. */
  lemma ProratedCostHalfCycle(now: int)
    ensures ProratedCost(3000, Some(now + 15 * MicrosPerDay), now) == 1500
  {
    DivModUnique(15 * MicrosPerDay, MicrosPerSecond, 15 * SecondsPerDay, 0);
  }

  /** An unparseable cycle end returns the full charge untouched. */
  lemma ProratedCostFailOpen(now: int)
    ensures ProratedCost(1000, None, now) == 1000
  {
  }

  /** With at most one full cycle left, a non-negative charge is prorated to at most itself. */
  lemma ProratedCostAtMostFull(cost: int, end: int, now: int)
    requires cost >= 0 && end - now <= SecondsPerMonth * MicrosPerSecond
    ensures 0 <= ProratedCost(cost, Some(end), now) <= cost
  {
    ProratedCostSign(cost, Some(end), now);
    if end - now >= MicrosPerSecond {
      var secs := (end - now) / MicrosPerSecond;
      var r := ProratedCost(cost, Some(end), now);
      DivMonotone(end - now, SecondsPerMonth * MicrosPerSecond, MicrosPerSecond);
      DivModUnique(SecondsPerMonth * MicrosPerSecond, MicrosPerSecond, SecondsPerMonth, 0);
      MulMonotone(secs, SecondsPerMonth, cost);
      assert secs * cost >= 0;
      assert r * SecondsPerMonth <= cost * SecondsPerMonth;
      MulCancel(r, cost, SecondsPerMonth);
    }
  }

  /** For a non-negative charge the prorated amount never decreases as the cycle end moves later. */
  lemma ProratedCostMonotone(cost: int, end1: int, end2: int, now: int)
    requires cost >= 0 && end1 <= end2
    ensures ProratedCost(cost, Some(end1), now) <= ProratedCost(cost, Some(end2), now)
  {
    ProratedCostSign(cost, Some(end2), now);
    if end1 - now >= MicrosPerSecond {
      var s1 := (end1 - now) / MicrosPerSecond;
      var s2 := (end2 - now) / MicrosPerSecond;
      DivMonotone(end1 - now, end2 - now, MicrosPerSecond);
      MulMonotone(s1, s2, cost);
      assert s1 * cost >= 0;
      var r1 := ProratedCost(cost, Some(end1), now);
      var r2 := ProratedCost(cost, Some(end2), now);
      assert r1 * SecondsPerMonth < r2 * SecondsPerMonth + SecondsPerMonth;
      MulCancel(r1, r2 + 1, SecondsPerMonth);
      assert r1 < r2 + 1;
    }
  }

  lemma DivMonotone(a: int, b: int, d: int)
    requires a <= b && d > 0
    ensures a / d <= b / d
  {
    var qa := a / d;
    var qb := b / d;
    assert (qa - qb) * d == qa * d - qb * d;
    if qa > qb {
      MulAtLeast(qa - qb, d);
    }
  }

  lemma MulMonotone(x: int, y: int, k: int)
    requires x <= y && k >= 0
    ensures x * k <= y * k
  {
    assert (y - x) * k >= 0;
    assert (y - x) * k == y * k - x * k;
  }

  /** `x * b <= y * b` with `b > 0` gives `x <= y`; strictly, `x * b < y * b` gives `x < y`. */
  lemma MulCancel(x: int, y: int, b: int)
    requires b > 0
    ensures x * b <= y * b ==> x <= y
    ensures x * b < y * b ==> x < y
  {
    assert (x - y) * b == x * b - y * b;
    if x > y {
      MulAtLeast(x - y, b);
    }
    if x == y {
      assert x * b == y * b;
    }
  }

  // ---------------------------------------------------------------------------------------------
  // get_time_remaining_str

  /** `get_time_remaining_str(next_cycle)`. */
  function TimeRemainingLabel(end: Option<int>, now: int): (shown: string)
    ensures end.None? ==> shown == "Unknown"
    ensures end.Some? && end.value - now <= 0 ==> shown == "0 days"
    ensures end.Some? && end.value - now > 0 ==>
              var rem := end.value - now;
              var days := rem / MicrosPerDay;
              var hours := rem % MicrosPerDay / MicrosPerHour;
              && 0 <= hours < 24
              && shown == (if days > 0 then Text.NatToString(days) + " days, " else "")
                          + Text.NatToString(hours) + " hours"
  {
    match end
    case None => "Unknown"
    case Some(e) =>
      var remaining := e - now;
      if remaining <= 0 then "0 days"
      else
        var td := FromMicros(remaining);
        var hours := td.seconds / SecondsPerHour;
        HoursOfDay(remaining);
        if td.days > 0 then Text.NatToString(td.days) + " days, " + Text.NatToString(hours) + " hours"
        else Text.NatToString(hours) + " hours"
  }

  /** `td.seconds // 3600` is the number of whole hours in the part of the interval below a day. */
  lemma HoursOfDay(us: int)
    ensures FromMicros(us).seconds / SecondsPerHour == us % MicrosPerDay / MicrosPerHour
    ensures 0 <= us % MicrosPerDay / MicrosPerHour < 24
  {
    var rest := us % MicrosPerDay;
    var secs := rest / MicrosPerSecond;
    var h := secs / SecondsPerHour;
    var x := secs % SecondsPerHour;
    var m := rest % MicrosPerSecond;
    assert rest == h * MicrosHour() + (x * MicrosPerSecond + m);
    DivModUnique(rest, MicrosPerHour, h, x * MicrosPerSecond + m);
  }

  function MicrosHour(): int { MicrosPerHour }

  /** Both helpers share the `<= 0` test: a cycle that is over gives a zero charge and the label
      `0 days` together, an unparseable one the full charge and `Unknown` together, and the two
      labels are used for nothing else. */
  lemma ProrationAndLabelAgree(cost: int, end: Option<int>, now: int)
    ensures TimeRemainingLabel(end, now) == "Unknown" <==> end.None?
    ensures TimeRemainingLabel(end, now) == "0 days" <==> end.Some? && end.value - now <= 0
    ensures TimeRemainingLabel(end, now) == "0 days" ==> ProratedCost(cost, end, now) == 0
    ensures TimeRemainingLabel(end, now) == "Unknown" ==> ProratedCost(cost, end, now) == cost
  {
    var shown := TimeRemainingLabel(end, now);
    if end.Some? && end.value - now > 0 {
      // every other label ends in "rs"
      assert shown[|shown| - 2..] == "rs";
      assert "Unknown"[5..] == "wn";
      assert "0 days"[4..] == "ys";
    }
  }
}

=== FILE: wrappers.dfy ===
/** Failure-carrying datatypes used across the model.
    - Option<T> stands for a Python value that may be missing (`None`, an absent dict key).
    - Result<T, E> stands for a handler step that either yields a value or stops with a message.
 */
module Wrappers {

  datatype Option<+T> = None | Some(value: T) {

    /** The value, or `default` when it is missing (Python's `d.get(key, default)`). */
    function GetOr(default: T): T {
      match this
      case Some(v) => v
      case None => default
    }
  }

  datatype Result<+T, +E> = Success(value: T) | Failure(error: E)
}
